=== FILE: README.md ===
# Verified model of four competitive-programming building blocks

This project is a Dafny model of the core of the Rust library `atcoder-lib`. It covers four components:

- **Union-find** (`src/collections/unionfind.rs`): a disjoint-set forest over `0..n` with union by size. `parent[i] == None` marks a root. `root_with_optimize` re-points the starting element at its root.
- **Weighted digraph with Floyd–Warshall** (`src/graph/dag.rs`): one adjacency list of `(from, to, cost)` edges per vertex, edited by `add_edge` (append) and `remove_edge` (swap-removal of the first edge to `to`). `floyd_warshall` builds an `i64` table: `i64::MAX` stands for "no path", the diagonal is 0, and every edge overwrites its cell in iteration order. It then relaxes the table with `saturating_add` and `chmin`.
- **Smallest-prime-factor sieve** (`src/calc/prime.rs`): `prepare(ub)` writes into `buf[m]` the smallest factor `d >= 2` of `m`. `factorize` divides by `buf[n]` until 1 and pushes each factor.
- **Euclid's gcd** (`src/calc/gcd.rs`): swap so that `a >= b`, then iterate `(a, b) := (b, a % b)`.

Layout:

| file | module | contents |
|---|---|---|
| `wrappers.dfy` | `Wrappers` | `Option` |
| `divisibility.dfy` | `Divisibility` | `Divides` and the arithmetic lemmas the other modules share |
| `gcd.dfy` | `Gcd` | Euclid's loop and gcd uniqueness and symmetry |
| `prime.dfy` | `Prime` | the sieve, the factorizer, and a table-free reference factorization `Factors` |
| `unionfind.dfy` | `UnionFind` | the forest, its invariant `Valid`, `Root`, `RootWithOptimize`, `Union` |
| `int64.dfy` | `Int64` | the `i64` range and `saturating_add` |
| `dag.dfy` | `Dag` | the graph, its edits, walks and their costs |
| `shortest_paths.dfy` | `ShortestPaths` | the Floyd–Warshall table and the unit-test graph |

Two kinds of models appear:

- **Pure functions over immutable datatypes:** the union-find state and the edge edits.
- **Methods with loops and invariants:** Floyd–Warshall, the sieve, `factorize` and Euclid.

Each operation has a partner:

- a reference definition: `Root` for `RootWithOptimize`, `Factors` for `Factorize`, `InitialCell` for the table-building loop, `IsRound` for a relaxation round;
- or an inverse: `RemoveUndoesAdd`;
- or an invariant it preserves: `Valid`, `Wellformed`, `IsSieve`.

These points depart from the textbook algorithms; the model follows the code:

- **Partial path compression:** `root_with_optimize` re-points only the starting element, not the whole path.
- **`union` on two elements of one set may still mutate:** a non-root among `x` and `y` is re-pointed straight at the common root, so the parent array can change. No representative and no size changes.
- **Last edge wins:** the Floyd–Warshall initialisation writes edge costs in `edges()` order, so the last of several parallel edges wins. A self-loop overwrites the 0 on the diagonal. Both cases can give entries above the cheapest walk; see Findings.

## Model

| member | source | states |
|---|---|---|
| UnionFind.New | src/collections/unionfind.rs:14-19 | `n` singletons: the forest invariant holds, every element is its own root with size 1, and no two distinct elements are equivalent |
| UnionFind.Root | src/collections/unionfind.rs:51-61 | the walk ends at a root (an element whose parent is `None`); it returns `x` exactly when `x` is a root, and it terminates because sizes strictly grow along parent links |
| UnionFind.Equiv | src/collections/unionfind.rs:46-48 | `x` and `y` are equivalent exactly when `x` is a member of the set whose representative is `y`'s root |
| UnionFind.EquivIsEquivalence | src/collections/unionfind.rs:46-48 | equivalence is reflexive, symmetric and transitive |
| UnionFind.Size | src/collections/unionfind.rs:76-78 | the raw entry lies in `1..n`, and at a root it is the number of elements in that root's set |
| UnionFind.RootWithOptimize | src/collections/unionfind.rs:63-74 | returns the same root as `root`; only `x`'s parent changes (to the root, if `x` was not a root); sizes, the invariant and every element's root are unchanged |
| UnionFind.RepointPreservesRoots | src/collections/unionfind.rs:68 | linking a non-root directly to its root keeps the invariant and every element's representative |
| UnionFind.TwoRootsFit | src/collections/unionfind.rs:40 | the sizes of two distinct roots add up to at most `n`, so the sum written by `union` stays in range |
| UnionFind.LinkIsValid | src/collections/unionfind.rs:39-40 | attaching the smaller root under the larger one and adding the sizes keeps the invariant; exactly the members of the smaller set move to the larger root |
| UnionFind.MergedEquiv | src/collections/unionfind.rs:39-41 | after the merge, two elements are equivalent exactly when they were before, or one was with `x` and the other with `y` |
| UnionFind.LinkRoots | src/collections/unionfind.rs:32-40 | the root of larger-or-equal size (the first one on a tie) stays a root, the other gets it as parent, its size becomes the sum, and only the smaller set's elements change root. No other parent entry and no other size entry changes |
| UnionFind.RootsOfBoth | src/collections/unionfind.rs:26-27 | `root_with_optimize` on `x` and then on `y` returns both roots; a non-root among `x` and `y` now points straight at its root, and no other parent, no size and no representative changes |
| UnionFind.Union | src/collections/unionfind.rs:21-42 | `x == y` (in range or not): no change and `AlreadyUnified`. Otherwise both indices must be in range, and `AlreadyUnified` is returned exactly when the roots agree. Then sizes and roots are unchanged, and the only mutation is re-pointing `x` and `y` at their roots. Otherwise `Unified`: the larger root stays on top and its size becomes the sum. The smaller root gets it as parent, `x` and `y` are re-pointed, and no other parent or size entry changes. Afterwards `x` and `y` are equivalent, and equivalence is the old one joined with the classes of `x` and `y` |
| UnionFind.UnionSameOutOfRange | src/collections/unionfind.rs:21-24 | `union(5, 5)` on three elements returns `AlreadyUnified` and leaves the forest unchanged, because `x == y` is answered before any index is read |
| UnionFind.UnionScenario | src/collections/unionfind.rs:86-104 | the unit test, extended with a repeated `union(0, 1)` and a check that 2 stays apart: after `union(0, 1)` on three singletons the result is `Unified`, and 0 and 1 are equivalent with size 2 (as the test asserts); the repeat returns `AlreadyUnified`, and 2 is not equivalent to 0 |
| UnionFind.UnionSizesScenario | src/collections/unionfind.rs:21-42 | on four singletons, `union(0, 1)`, `union(2, 3)`, `union(0, 2)` join 1 and 3 under root 0 of size 4 (both have representative 0), while the raw `size(2)` of the absorbed root stays 2 |
| Dag.New | src/graph/dag.rs:18-22 | `size` vertices with empty lists |
| Dag.AddEdge | src/graph/dag.rs:24-27 | exactly one edge `(from, to, cost)` is appended to `from`'s list; every other list is unchanged and the graph invariants are preserved |
| Dag.Position | src/graph/dag.rs:31 | the index of the first edge leading to `to`, and `None` exactly when no edge does |
| Dag.SwapRemove | src/graph/dag.rs:32 | one element shorter, the last element moves into the vacated slot, the others keep their places, and the multiset loses exactly the removed element |
| Dag.RemoveAt | src/graph/dag.rs:30-32 | swap-removal at one index of one list: the other lists are unchanged and the graph invariants are preserved |
| Dag.RemoveEdge | src/graph/dag.rs:29-33 | no change when no edge of `from` leads to `to`; otherwise the first such edge is swap-removed |
| Dag.RemoveUndoesAdd | src/graph/dag.rs:24-33 | removing right after adding an edge to a fresh target restores the graph |
| Dag.Flatten | src/graph/dag.rs:39-41 | an edge is in the flattening exactly when it is in one of the lists |
| Dag.SizeFixed | src/graph/dag.rs:35-37 | `size` is the count given to `new`, and neither `add_edge` nor `remove_edge` changes it |
| Dag.AllEdges | src/graph/dag.rs:39-41 | every edge iterated belongs to its source's list, and it has an in-range target and a non-negative cost when the graph does |
| Dag.WalkConcat | src/graph/dag.rs:81-88 | walks compose and their costs add, which is the step that relaxing through a pivot takes |
| Dag.PotentialBound | src/graph/dag.rs:99-112 | a potential that no edge overshoots is a lower bound on the cost of every walk |
| ShortestPaths.WriteCell | src/graph/dag.rs:72 | one assignment `dp[i][j] = v` changes that cell and no other |
| ShortestPaths.BlankTable | src/graph/dag.rs:63-68 | an `n`×`n` table with 0 on the diagonal and `i64::MAX` everywhere else |
| ShortestPaths.LastCostStep | src/graph/dag.rs:71-73 | writing one more edge changes only that edge's cell |
| ShortestPaths.InitialTable | src/graph/dag.rs:62-73 | an `n`×`n` table whose cell `(i, j)` holds the cost of the last edge from `i` to `j` in `edges()` order, or 0 on the diagonal, or `i64::MAX` if no such edge exists |
| ShortestPaths.InitialFacts | src/graph/dag.rs:63-73 | with non-negative costs, a starting table whose cells hold their default or some edge's cost is non-negative, and each of its finite entries is the cost of a walk (empty or one edge) |
| ShortestPaths.PivotFixed | src/graph/dag.rs:81-88 | with non-negative entries, a round leaves row `k` and column `k` unchanged, so updating in place equals relaxing simultaneously |
| ShortestPaths.RoundRealizable | src/graph/dag.rs:84-85 | a round keeps every finite entry the cost of some walk |
| ShortestPaths.RoundTriangle | src/graph/dag.rs:81-88 | after the round through `k`, no detour through any vertex up to `k` improves an entry |
| ShortestPaths.RoundIs | src/graph/dag.rs:82-87 | a table satisfying the cell-by-cell round condition is the functional round `Round` |
| ShortestPaths.RoundsFacts | src/graph/dag.rs:81-88 | on a non-negative table, the functional rounds through pivots `0 .. k - 1` keep entries non-negative and finite entries realizable, and leave no detour through those pivots that improves an entry |
| Int64.SaturatingAdd | src/graph/dag.rs:84 | `i64::saturating_add`: the exact sum when it fits in `i64`, otherwise the bound on the side it overflows |
| ShortestPaths.Chmin | src/graph/dag.rs:75-79 | the `chmin` closure: the new value is at most both the old value and the candidate, and is one of them |
| ShortestPaths.RelaxThrough | src/graph/dag.rs:82-87 | no cell grows, and on a non-negative table the round equals `chmin(d[i][j], d[i][k] + d[k][j])` with saturating addition, computed from the table before the round |
| ShortestPaths.Relax | src/graph/dag.rs:81-88 | the in-place triple loop never raises a cell; on a non-negative table its result equals the functional reference `Rounds` through all pivots |
| ShortestPaths.RelaxedFacts | src/graph/dag.rs:81-88 | the result of all rounds on a non-negative, realizable table is non-negative and realizable, and satisfies `sp[i][j] <= saturating_add(sp[i][k], sp[k][j])` |
| ShortestPaths.FloydWarshall | src/graph/dag.rs:61-91 | an `n`×`n` table bounded above by the initial table. With non-negative costs it equals the functional `Rounds` of the starting table, every entry is non-negative, every finite entry is the cost of a walk, unreachable pairs stay `i64::MAX`, and `sp[i][j] <= saturating_add(sp[i][k], sp[k][j])` for all `i`, `k`, `j` |
| ShortestPaths.ExampleGraphBuilt | src/graph/dag.rs:100-106 | the five `add_edge` calls of the unit test build the expected adjacency lists |
| ShortestPaths.ExampleDistances | src/graph/dag.rs:108-111 | any table with the Floyd–Warshall guarantees on the test graph has `sp[0][3] == 5` and `sp[0][1] == 4` |
| ShortestPaths.FloydWarshallExample | src/graph/dag.rs:98-112 | the unit test: `sp[0][3] == 5` and `sp[0][1] == 4` |
| ShortestPaths.SelfLoopAsWritten | src/graph/dag.rs:65-73 | as written, one vertex with a self-loop of cost 1 gets distance 1 to itself, although the empty walk costs 0 |
| ShortestPaths.ParallelAsWritten | src/graph/dag.rs:70-73 | as written, edges `0 -> 1` of cost 1 and then cost 2 give distance 2, although the first edge alone costs 1 |
| ShortestPaths.MinCost | src/graph/dag.rs:70-73 | the corrected cell: at most the default and at most every matching edge's cost, and equal to one of them |
| ShortestPaths.MinWrite | src/graph/dag.rs:71-73 | writing one more edge with `chmin` updates the corrected table of the edges so far |
| ShortestPaths.InitialTableMin | src/graph/dag.rs:62-73 | the corrected starting table: each cell is the cheapest of its default and every edge between its vertices |
| ShortestPaths.WalkBound | src/graph/dag.rs:81-88 | a non-negative table that no detour improves and no edge undercuts is at most the cost of every walk |
| ShortestPaths.FloydWarshallMin | src/graph/dag.rs:61-91 | with the corrected start and non-negative costs, every finite entry is the cost of some walk and at most the cost of every walk, so it is the shortest distance. An entry is `i64::MAX` when there is no walk, or when every walk costs at least `i64::MAX` (saturation) |
| ShortestPaths.SelfLoopCorrected | src/graph/dag.rs:65-73 | with the correction, the self-loop graph gets distance 0 from the vertex to itself |
| ShortestPaths.ParallelCorrected | src/graph/dag.rs:70-73 | with the correction, the parallel-edge graph gets distance 1 |
| Prime.SmallestFactor | src/calc/prime.rs:9-17 | the smallest factor `d >= 2` of `m`: it divides `m`, no smaller factor `>= 2` does, and it is prime |
| Prime.Prepare | src/calc/prime.rs:6-24 | a table of length `ub + 1` with zeros at 0 and 1; for `2 <= m <= ub`, `buf[m]` is prime, divides `m`, and no `d` in `2..buf[m]` divides `m`. The loop invariant also keeps every written cell from being overwritten |
| Prime.Factorize | src/calc/prime.rs:26-33 | the old contents stay as a prefix and the table-free factorization `Factors(n)` is appended: nothing for `n <= 1`, otherwise primes in non-decreasing order whose product is `n` |
| Prime.FactorsArePrime | src/calc/prime.rs:28-32 | every factor is prime |
| Prime.FactorsProduct | src/calc/prime.rs:28-32 | the product of the factors of `n >= 1` is `n` |
| Prime.FactorsDivide | src/calc/prime.rs:28-32 | every factor divides `n` |
| Prime.FactorsSorted | src/calc/prime.rs:29-31 | the factors come in non-decreasing order |
| Prime.FactorizeTen | src/calc/prime_test.rs:3-11 | the unit test: with a table up to 1000, 10 factorizes as `[2, 5]` |
| Gcd.Gcd | src/calc/gcd.rs:3-19 | for nonzero inputs: a common divisor that every common divisor divides, with `0 < g <= min(a, b)`; when one argument divides the other, the result is that argument |
| Gcd.GcdUnique | src/calc/gcd.rs:3-19 | the greatest common divisor is unique |
| Gcd.GcdCommutes | src/calc/gcd.rs:6-8 | swapping the arguments does not change the result |
| Gcd.GcdOfMultiple | src/calc/gcd.rs:12-14 | when `b` divides `a`, the gcd is `b`, so `gcd(a, a) == a` |

## Left out

- `src/contest.rs` (`Scanner`): input parsing over standard input; this is I/O and is not modelled.
- The segment tree is not modelled.
- Dijkstra and other single-source searches: `src/graph/dag.rs` has none.
- Machine widths:
  - `usize` is modelled as unbounded naturals, including the product `n * k` in the sieve (no overflow).
  - `i64` is modelled exactly as the range `-2^63 .. 2^63 - 1`, with `saturating_add` written out.
- Panics on out-of-range indices become preconditions. Examples: `x < n` in `root`, `size` and `equiv`; `x < n` and `y < n` in `union` unless `x == y`, which returns before indexing; and `n < |buf|` in `factorize` unless `n <= 1`.
- `gcd` is modelled on positive naturals only. The generic `PrimInt` signatures for signed types are not modelled.
- `add_edge` does not check `to`. The model accepts any target, and `TargetsInRange` is an invariant that `floyd_warshall` requires (out-of-range targets would panic there).
- ShortestPaths.FloydWarshall: the walk-related guarantees (non-negativity, realizability, unreachable pairs, the triangle inequality) are stated only for non-negative costs. With negative costs, `saturating_add(INF, negative)` is finite and the result has no clean meaning.
- ShortestPaths.FloydWarshall: the contract does not claim that an entry is at most the cost of every walk. That claim is false for the code as written (see Findings). `FloydWarshallMin` proves it for the corrected initialisation.

## Findings

| source | as written | input that shows it | evidently intended | confidence | as-written member | corrected member |
|---|---|---|---|---|---|---|
| src/graph/dag.rs:65-73 | every edge overwrites its cell with `dp[e.from][e.to] = e.cost`, including the 0 on the diagonal | one vertex with `add_edge(0, 0, 1)`: the result has `sp[0][0] == 1`, though the empty walk costs 0 | keep the smaller value (`chmin`), so the diagonal stays 0 | medium, not executed | ShortestPaths.SelfLoopAsWritten | ShortestPaths.FloydWarshallMin |
| src/graph/dag.rs:70-73 | the last of several parallel edges wins, whatever its cost | `add_edge(0, 1, 1)` then `add_edge(0, 1, 2)` on two vertices: the result has `sp[0][1] == 2`, though the first edge costs 1 | keep the cheapest parallel edge (`chmin`) | medium, not executed | ShortestPaths.ParallelAsWritten | ShortestPaths.FloydWarshallMin |

Both rows come from the same line. With the corrected initialisation (`InitialTableMin`), `FloydWarshallMin` proves that every finite entry is exactly the shortest walk cost. An entry is `i64::MAX` when there is no walk, or when every walk costs at least `i64::MAX` (saturation). `SelfLoopCorrected` and `ParallelCorrected` show the two inputs above getting 0 and 1. On the unit-test graph, which has neither self-loops nor parallel edges, both versions agree.

=== FILE: dag.dfy ===
/** The weighted directed graph of src/graph/dag.rs: one list of outgoing edges per
    vertex, edited by appending and by swap-removal. Despite its name the graph may
    contain cycles. */
module Dag {
  import opened Wrappers
  import opened Int64

  datatype Edge = Edge(from: nat, to: nat, cost: I64)

  datatype Dag = Dag(edges: seq<seq<Edge>>)

  /** The number of vertices. */
  function Size(g: Dag): nat {
    |g.edges|
  }

  /** What the edit operations keep: every edge is listed under its own source. */
  ghost predicate Wellformed(g: Dag) {
    forall v, k :: 0 <= v < |g.edges| && 0 <= k < |g.edges[v]| ==> g.edges[v][k].from == v
  }

  /** Every edge ends at a vertex of the graph; `add_edge` does not check this, but
      the shortest-path table indexes by it. */
  ghost predicate TargetsInRange(g: Dag) {
    forall v, k :: 0 <= v < |g.edges| && 0 <= k < |g.edges[v]| ==> g.edges[v][k].to < |g.edges|
  }

  predicate NonNegativeCosts(g: Dag) {
    forall v, k :: 0 <= v < |g.edges| && 0 <= k < |g.edges[v]| ==> g.edges[v][k].cost >= 0
  }

  /** `size` vertices and no edges. */
  function New(size: nat): (g: Dag)
    ensures Size(g) == size
    ensures forall v :: 0 <= v < size ==> g.edges[v] == []
    ensures Wellformed(g) && TargetsInRange(g) && NonNegativeCosts(g)
  {
    Dag(seq(size, _ => []))
  }

  /** Appends one edge to the list of `from`; parallel edges are kept. */
  function AddEdge(g: Dag, from: nat, to: nat, cost: I64): (g': Dag)
    requires from < |g.edges|
    ensures Size(g') == Size(g)
    ensures g'.edges[from] == g.edges[from] + [Edge(from, to, cost)]
    ensures forall v :: 0 <= v < |g.edges| && v != from ==> g'.edges[v] == g.edges[v]
    ensures Wellformed(g) ==> Wellformed(g')
    ensures TargetsInRange(g) && to < |g.edges| ==> TargetsInRange(g')
    ensures NonNegativeCosts(g) && cost >= 0 ==> NonNegativeCosts(g')
  {
    Dag(g.edges[from := g.edges[from] + [Edge(from, to, cost)]])
  }

  /** `Iterator::position`: the index of the first edge leading to `to`. */
  function Position(adj: seq<Edge>, to: nat): (p: Option<nat>)
    ensures p.Some? ==> p.value < |adj| && adj[p.value].to == to
    ensures p.Some? ==> forall k :: 0 <= k < p.value ==> adj[k].to != to
    ensures p.None? <==> forall k :: 0 <= k < |adj| ==> adj[k].to != to
  {
    if |adj| == 0 then None
    else if adj[0].to == to then Some(0)
    else match Position(adj[1..], to)
      case None => None
      case Some(p) => Some(p + 1)
  }

  /** `Vec::swap_remove`: the last element moves into slot `i`, and the sequence
      loses one element, the one that was at `i`. */
  function SwapRemove<T>(s: seq<T>, i: nat): (r: seq<T>)
    requires i < |s|
    ensures |r| == |s| - 1
    ensures i < |r| ==> r[i] == s[|s| - 1]
    ensures forall k :: 0 <= k < |r| && k != i ==> r[k] == s[k]
    ensures multiset(r) + multiset{s[i]} == multiset(s)
  {
    var r := s[i := s[|s| - 1]][..|s| - 1];
    if i == |s| - 1 then
      assert s == r + [s[i]];
      r
    else
      assert s == s[..i] + [s[i]] + s[i + 1..|s| - 1] + [s[|s| - 1]];
      assert r == s[..i] + [s[|s| - 1]] + s[i + 1..|s| - 1];
      r
  }

  /** Swap-removes the edge at index `p` of the list of `from`. */
  function RemoveAt(g: Dag, from: nat, p: nat): (g': Dag)
    requires from < |g.edges| && p < |g.edges[from]|
    ensures Size(g') == Size(g)
    ensures forall v :: 0 <= v < |g.edges| && v != from ==> g'.edges[v] == g.edges[v]
    ensures |g'.edges[from]| == |g.edges[from]| - 1
    ensures p < |g'.edges[from]| ==> g'.edges[from][p] == g.edges[from][|g.edges[from]| - 1]
    ensures forall k :: 0 <= k < |g'.edges[from]| && k != p ==> g'.edges[from][k] == g.edges[from][k]
    ensures multiset(g'.edges[from]) + multiset{g.edges[from][p]} == multiset(g.edges[from])
    ensures Wellformed(g) ==> Wellformed(g')
    ensures TargetsInRange(g) ==> TargetsInRange(g')
    ensures NonNegativeCosts(g) ==> NonNegativeCosts(g')
  {
    var adj := g.edges[from];
    var adj' := SwapRemove(adj, p);
    assert forall k :: 0 <= k < |adj'| ==> adj'[k] in adj by {
      forall k | 0 <= k < |adj'|
        ensures adj'[k] in adj
      {
        if k == p {
          assert adj[|adj| - 1] in adj;
        }
      }
    }
    Dag(g.edges[from := adj'])
  }

  /** Removes the first edge of `from` that leads to `to` by swap-removal; does
      nothing when there is none. */
  function RemoveEdge(g: Dag, from: nat, to: nat): (g': Dag)
    requires from < |g.edges|
    ensures (forall k :: 0 <= k < |g.edges[from]| ==> g.edges[from][k].to != to) ==> g' == g
    ensures forall p :: 0 <= p < |g.edges[from]| && g.edges[from][p].to == to &&
                        (forall k :: 0 <= k < p ==> g.edges[from][k].to != to) ==>
              g' == RemoveAt(g, from, p)
  {
    var adj := g.edges[from];
    match Position(adj, to)
    case None => g
    case Some(p) =>
      assert forall q :: 0 <= q < |adj| && adj[q].to == to && (forall k :: 0 <= k < q ==> adj[k].to != to) ==> q == p;
      RemoveAt(g, from, p)
  }

  /** The vertex count is fixed by `new`: neither edit changes it. */
  lemma SizeFixed(g: Dag, n: nat, from: nat, to: nat, cost: I64)
    requires from < |g.edges|
    ensures Size(New(n)) == n
    ensures Size(AddEdge(g, from, to, cost)) == Size(g)
    ensures Size(RemoveEdge(g, from, to)) == Size(g)
  {
  }

  /** Removing right after adding undoes the addition, provided no earlier edge of
      `from` led to `to`: the new edge is the first match and the last element. */
  lemma RemoveUndoesAdd(g: Dag, from: nat, to: nat, cost: I64)
    requires from < |g.edges|
    requires forall k :: 0 <= k < |g.edges[from]| ==> g.edges[from][k].to != to
    ensures RemoveEdge(AddEdge(g, from, to, cost), from, to) == g
  {
    var g' := AddEdge(g, from, to, cost);
    var adj := g'.edges[from];
    assert adj[|adj| - 1].to == to;
    assert forall k :: 0 <= k < |adj| - 1 ==> adj[k] == g.edges[from][k];
    assert Position(adj, to) == Some(|adj| - 1);
    assert SwapRemove(adj, |adj| - 1) == g.edges[from];
    assert g.edges[from := g.edges[from]] == g.edges;
  }

  /** The edges of all lists, by source vertex and then insertion order: the
      iteration order of `edges()`. */
  function Flatten(ss: seq<seq<Edge>>): (es: seq<Edge>)
    ensures forall v, k :: 0 <= v < |ss| && 0 <= k < |ss[v]| ==> ss[v][k] in es
    ensures forall e :: e in es ==> exists v :: 0 <= v < |ss| && e in ss[v]
  {
    if |ss| == 0 then []
    else
      var rest := Flatten(ss[1..]);
      assert forall v :: 1 <= v < |ss| ==> ss[v] == ss[1..][v - 1];
      ss[0] + rest
  }

  function AllEdges(g: Dag): (es: seq<Edge>)
    ensures Wellformed(g) ==> forall e :: e in es ==> e.from < |g.edges| && e in g.edges[e.from]
    ensures TargetsInRange(g) ==> forall e :: e in es ==> e.to < |g.edges|
    ensures NonNegativeCosts(g) ==> forall e :: e in es ==> e.cost >= 0
  {
    Flatten(g.edges)
  }

  /** `w` is a walk of edges of `g` from `u` to `v`; the empty walk stays at `u`. */
  ghost predicate IsWalk(g: Dag, u: nat, v: nat, w: seq<Edge>)
    decreases |w|
  {
    if |w| == 0 then u == v
    else
      && w[0].from == u
      && w[0].from < |g.edges|
      && w[0] in g.edges[w[0].from]
      && IsWalk(g, w[0].to, v, w[1..])
  }

  function WalkCost(w: seq<Edge>): int {
    if |w| == 0 then 0 else w[0].cost + WalkCost(w[1..])
  }

  /** Some walk from `u` to `v` costs exactly `c`. */
  ghost predicate Realizable(g: Dag, u: nat, v: nat, c: int) {
    exists w :: IsWalk(g, u, v, w) && WalkCost(w) == c
  }

  ghost predicate Reachable(g: Dag, u: nat, v: nat) {
    exists w :: IsWalk(g, u, v, w)
  }

  /** Walks compose, and their costs add up. */
  lemma {:induction false} WalkConcat(g: Dag, u: nat, m: nat, v: nat, w1: seq<Edge>, w2: seq<Edge>)
    requires IsWalk(g, u, m, w1) && IsWalk(g, m, v, w2)
    ensures IsWalk(g, u, v, w1 + w2)
    ensures WalkCost(w1 + w2) == WalkCost(w1) + WalkCost(w2)
    decreases |w1|
  {
    if |w1| == 0 {
      assert w1 + w2 == w2;
    } else {
      WalkConcat(g, w1[0].to, m, v, w1[1..], w2);
      assert (w1 + w2)[0] == w1[0];
      assert (w1 + w2)[1..] == w1[1..] + w2;
    }
  }

  lemma RealizableConcat(g: Dag, u: nat, m: nat, v: nat, c1: int, c2: int)
    requires Realizable(g, u, m, c1) && Realizable(g, m, v, c2)
    ensures Realizable(g, u, v, c1 + c2)
  {
    var w1 :| IsWalk(g, u, m, w1) && WalkCost(w1) == c1;
    var w2 :| IsWalk(g, m, v, w2) && WalkCost(w2) == c2;
    WalkConcat(g, u, m, v, w1, w2);
  }

  /** A potential `h` that no edge overshoots (`h[to] <= h[from] + cost`) bounds the
      cost of every walk from below: the usual certificate that a distance is
      shortest. */
  lemma {:induction false} PotentialBound(g: Dag, h: seq<int>, u: nat, v: nat, w: seq<Edge>)
    requires Wellformed(g) && TargetsInRange(g) && |h| == |g.edges| && u < |g.edges|
    requires forall e :: e in AllEdges(g) ==> h[e.to] <= h[e.from] + e.cost
    requires IsWalk(g, u, v, w)
    ensures v < |g.edges| && WalkCost(w) >= h[v] - h[u]
    decreases |w|
  {
    if |w| > 0 {
      var e := w[0];
      assert e in AllEdges(g) by {
        var k :| 0 <= k < |g.edges[e.from]| && g.edges[e.from][k] == e;
      }
      assert e.to < |g.edges| by {
        var k :| 0 <= k < |g.edges[e.from]| && g.edges[e.from][k] == e;
      }
      PotentialBound(g, h, e.to, v, w[1..]);
    }
  }
}

=== FILE: divisibility.dfy ===
/** Divisibility on natural numbers, shared by the gcd and the prime factorizer.
    The solver handles products of two variables poorly, so the few facts about
    them that the other modules need are proved here once, step by step. */
module Divisibility {

  /** `d` is a positive divisor of `m`. */
  predicate Divides(d: nat, m: nat) {
    d > 0 && m % d == 0
  }

  /** Multiplying by a factor of at least one does not shrink a positive number. */
  lemma {:induction false} MulAtLeast(d: int, t: int)
    requires d > 0 && t >= 1
    ensures d * t >= d
  {
    if t > 1 {
      MulAtLeast(d, t - 1);
      assert d * t == d * (t - 1) + d;
    }
  }

  lemma MulSub(d: int, a: int, b: int)
    ensures d * a - d * b == d * (a - b)
  {
  }

  /** Quotient and remainder are the only pair with `x == d * q + r` and `0 <= r < d`. */
  lemma DivModUnique(x: int, d: int, q: int, r: int)
    requires d > 0 && x == d * q + r && 0 <= r < d
    ensures x % d == r && x / d == q
  {
    var q' := x / d;
    var r' := x % d;
    assert x == d * q' + r';
    MulSub(d, q, q');
    assert d * (q - q') == r' - r;
    if q - q' >= 1 {
      MulAtLeast(d, q - q');
    } else if q' - q >= 1 {
      MulAtLeast(d, q' - q);
      MulSub(d, q', q);
    }
  }

  /** Every multiple of `d` is divisible by `d`. */
  lemma MultipleIsDivisible(d: nat, q: nat)
    requires d > 0
    ensures Divides(d, d * q)
  {
    DivModUnique(d * q, d, q, 0);
  }

  /** A divisor splits its multiple exactly: `m == d * (m / d)`. */
  lemma DivisorQuotient(d: nat, m: nat)
    requires Divides(d, m)
    ensures m == d * (m / d)
  {
  }

  /** A positive divisor of a positive number is at most that number. */
  lemma DividesLe(d: nat, m: nat)
    requires Divides(d, m) && m > 0
    ensures d <= m
  {
    DivisorQuotient(d, m);
    assert m / d >= 1;
    MulAtLeast(d, m / d);
  }

  /** Divisibility is transitive. */
  lemma DividesTrans(a: nat, b: nat, c: nat)
    requires Divides(a, b) && Divides(b, c)
    ensures Divides(a, c)
  {
    DivisorQuotient(a, b);
    DivisorQuotient(b, c);
    var p, q := b / a, c / b;
    assert c == (a * p) * q;
    assert (a * p) * q == a * (p * q);
    MultipleIsDivisible(a, p * q);
  }

  /** Two positive numbers that divide each other are equal. */
  lemma DividesAntisymmetric(a: nat, b: nat)
    requires Divides(a, b) && Divides(b, a)
    ensures a == b
  {
    DividesLe(a, b);
    DividesLe(b, a);
  }

  /** For a divisor of `b`, dividing `a` is the same as dividing `a % b`: the step
      that keeps Euclid's loop on the same set of common divisors. */
  lemma DividesModStep(d: nat, a: nat, b: nat)
    requires b > 0 && Divides(d, b)
    ensures Divides(d, a) <==> Divides(d, a % b)
  {
    DivisorQuotient(d, b);
    var kb, qa := b / d, a / b;
    assert a == b * qa + a % b;
    assert b * qa == d * (kb * qa);
    if Divides(d, a) {
      DivisorQuotient(d, a);
      var ka := a / d;
      MulSub(d, ka, kb * qa);
      assert a % b == d * (ka - kb * qa);
      if ka - kb * qa < 0 {
        MulAtLeast(d, kb * qa - ka);
        MulSub(d, kb * qa, ka);
        assert false;
      }
      MultipleIsDivisible(d, ka - kb * qa);
    }
    if Divides(d, a % b) {
      DivisorQuotient(d, a % b);
      var kr := (a % b) / d;
      assert a == d * (kb * qa) + d * kr;
      assert a == d * (kb * qa + kr);
      MultipleIsDivisible(d, kb * qa + kr);
    }
  }
}

=== FILE: gcd.dfy ===
/** Euclid's algorithm on positive integers (src/calc/gcd.rs). */
module Gcd {
  import opened Divisibility

  /** `g` is a greatest common divisor of `a` and `b`: it divides both, and every
      common divisor divides it. */
  ghost predicate IsGcd(a: nat, b: nat, g: nat) {
    && Divides(g, a)
    && Divides(g, b)
    && forall d :: Divides(d, a) && Divides(d, b) ==> Divides(d, g)
  }

  /** The source's loop: after swapping so that `a >= b`, replace `(a, b)` by
      `(b, a % b)` until the remainder is zero, then return `b`. Both arguments
      must be nonzero (the source asserts this in debug builds). */
  method Gcd(a: nat, b: nat) returns (g: nat)
    requires a > 0 && b > 0
    ensures IsGcd(a, b, g)
    ensures 0 < g <= a && g <= b
    ensures Divides(b, a) ==> g == b
    ensures Divides(a, b) ==> g == a
  {
    var x, y := a, b;
    if y > x {
      x, y := y, x;
    }
    while true
      invariant y > 0
      invariant forall d :: Divides(d, x) && Divides(d, y) <==> Divides(d, a) && Divides(d, b)
      decreases y
    {
      var c := x % y;
      if c == 0 {
        assert Divides(y, x) && Divides(y, y);
        forall d | Divides(d, a) && Divides(d, b)
          ensures Divides(d, y)
        {
        }
        g := y;
        DividesLe(g, a);
        DividesLe(g, b);
        if Divides(b, a) {
          GcdOfMultiple(a, b, g);
        }
        if Divides(a, b) {
          GcdOfMultiple(b, a, g);
        }
        return;
      }
      forall d
        ensures Divides(d, y) && Divides(d, c) <==> Divides(d, x) && Divides(d, y)
      {
        if Divides(d, y) {
          DividesModStep(d, x, y);
        }
      }
      x, y := y, c;
    }
  }

  /** The greatest common divisor is unique. */
  lemma GcdUnique(a: nat, b: nat, g: nat, h: nat)
    requires IsGcd(a, b, g) && IsGcd(a, b, h)
    ensures g == h
  {
    assert Divides(g, h) && Divides(h, g);
    DividesAntisymmetric(g, h);
  }

  /** Swapping the arguments does not change the greatest common divisor. */
  lemma GcdCommutes(a: nat, b: nat, g: nat, h: nat)
    requires IsGcd(a, b, g) && IsGcd(b, a, h)
    ensures g == h
  {
    assert IsGcd(a, b, h);
    GcdUnique(a, b, g, h);
  }

  /** When `b` divides `a`, the greatest common divisor is `b` itself. */
  lemma GcdOfMultiple(a: nat, b: nat, g: nat)
    requires Divides(b, a) && IsGcd(a, b, g)
    ensures g == b
  {
    assert Divides(b, b);
    assert Divides(b, g);
    assert b > 0;
    DividesAntisymmetric(b, g);
  }
}

=== FILE: int64.dfy ===
/** Signed 64-bit integers as a range of mathematical integers. */
module Int64 {

  const MIN: int := -0x8000_0000_0000_0000
  const MAX: int := 0x7fff_ffff_ffff_ffff

  type I64 = x: int | MIN <= x <= MAX

  /** `i64::saturating_add`: the exact sum, clamped to the representable range. */
  function SaturatingAdd(a: I64, b: I64): (r: I64)
    ensures MIN <= a + b <= MAX ==> r == a + b
    ensures a + b > MAX ==> r == MAX
    ensures a + b < MIN ==> r == MIN
  {
    if a + b > MAX then MAX else if a + b < MIN then MIN else a + b
  }
}

=== FILE: prime.dfy ===
/** The smallest-prime-factor sieve and the factorizer built on it (src/calc/prime.rs). */
module Prime {
  import opened Divisibility

  /** `p` is prime: at least 2 and without a divisor strictly between 1 and itself. */
  ghost predicate IsPrime(p: nat) {
    p >= 2 && forall e :: 2 <= e < p ==> !Divides(e, p)
  }

  /** The smallest divisor of `m` that is at least `d`. */
  function SmallestFactorFrom(m: nat, d: nat): (r: nat)
    requires 2 <= d <= m
    ensures d <= r <= m && Divides(r, m)
    ensures forall e :: d <= e < r ==> !Divides(e, m)
    decreases m - d
  {
    if m % d == 0 then d else SmallestFactorFrom(m, d + 1)
  }

  /** The smallest factor `d >= 2` of `m`; it is prime, and every factor `>= 2` of `m`
      is at least as large. */
  function SmallestFactor(m: nat): (p: nat)
    requires m >= 2
    ensures 2 <= p <= m && Divides(p, m)
    ensures forall e :: 2 <= e && Divides(e, m) ==> p <= e
    ensures IsPrime(p)
  {
    var p := SmallestFactorFrom(m, 2);
    SmallestFactorIsPrime(m, p);
    p
  }

  lemma SmallestFactorIsPrime(m: nat, p: nat)
    requires 2 <= p && Divides(p, m)
    requires forall e :: 2 <= e < p ==> !Divides(e, m)
    ensures IsPrime(p)
  {
    forall e | 2 <= e < p
      ensures !Divides(e, p)
    {
      if Divides(e, p) {
        DividesTrans(e, p, m);
      }
    }
  }

  /** The factorizer: `buf[m]` is meant to hold the smallest factor of `m`. */
  datatype PrimeFactorizer = PrimeFactorizer(buf: seq<nat>)

  /** The table `prepare` builds: zeros at 0 and 1, the smallest factor elsewhere. */
  ghost predicate IsSieve(buf: seq<nat>) {
    && |buf| >= 1
    && buf[0] == 0
    && (|buf| >= 2 ==> buf[1] == 0)
    && forall m :: 2 <= m < |buf| ==> buf[m] == SmallestFactor(m)
  }

  /** A multiple of `n` between `n * k` and `n * (k + 1)` is `n * k` itself. */
  lemma MultipleBetween(n: nat, k: nat, m: nat)
    requires n > 0 && Divides(n, m) && n * k <= m < n * (k + 1)
    ensures m == n * k
  {
    DivisorQuotient(n, m);
    assert n * (k + 1) == n * k + n;
    var q := m / n;
    if q < k {
      MulAtLeast(n, k - q);
      MulSub(n, k, q);
    } else if q > k {
      MulAtLeast(n, q - k);
      MulSub(n, q, k);
    }
  }

  /** The sieve: for each `n` from 2 to `upper_bound`, every multiple `n * k` whose
      cell is still 0 receives `n`; a cell that already holds a factor is never
      overwritten. Products are mathematical integers here. */
  method Prepare(upperBound: nat) returns (pf: PrimeFactorizer)
    ensures |pf.buf| == upperBound + 1
    ensures pf.buf[0] == 0 && (upperBound >= 1 ==> pf.buf[1] == 0)
    ensures forall m :: 2 <= m <= upperBound ==>
              2 <= pf.buf[m] && Divides(pf.buf[m], m) && IsPrime(pf.buf[m])
    ensures forall m, d :: 2 <= m <= upperBound && 2 <= d < pf.buf[m] ==> !Divides(d, m)
    ensures IsSieve(pf.buf)
  {
    var buf: seq<nat> := seq(upperBound + 1, _ => 0);
    var n := 2;
    while n <= upperBound
      invariant 2 <= n && (n <= upperBound + 1 || upperBound < 2)
      invariant |buf| == upperBound + 1
      invariant buf[0] == 0 && (upperBound >= 1 ==> buf[1] == 0)
      invariant forall m :: 2 <= m <= upperBound ==>
                  buf[m] == (if SmallestFactor(m) < n then SmallestFactor(m) else 0)
    {
      var k := 1;
      ghost var before := buf;
      while n * k <= upperBound
        invariant k >= 1
        invariant |buf| == upperBound + 1
        invariant buf[0] == 0 && (upperBound >= 1 ==> buf[1] == 0)
        invariant forall m :: 0 <= m <= upperBound && before[m] != 0 ==> buf[m] == before[m]
        invariant forall m :: 2 <= m <= upperBound ==>
                    buf[m] == (if SmallestFactor(m) < n || (SmallestFactor(m) == n && m < n * k)
                               then SmallestFactor(m) else 0)
        decreases upperBound - n * k
      {
        var m := n * k;
        MulAtLeast(n, k);
        MultipleIsDivisible(n, k);
        if buf[m] == 0 {
          buf := buf[m := n];
        }
        forall m' | 2 <= m' <= upperBound && m' != m && SmallestFactor(m') == n && m' < n * (k + 1)
          ensures m' < n * k
        {
          if m' >= n * k {
            MultipleBetween(n, k, m');
          }
        }
        assert n * (k + 1) == n * k + n;
        k := k + 1;
      }
      n := n + 1;
    }
    pf := PrimeFactorizer(buf);
  }

  /** The product of a sequence of naturals. */
  function Product(s: seq<nat>): nat {
    if |s| == 0 then 1 else s[0] * Product(s[1..])
  }

  predicate Sorted(s: seq<nat>) {
    forall i, j :: 0 <= i < j < |s| ==> s[i] <= s[j]
  }

  /** The factorization `factorize` produces, stated without the table: the smallest
      factor of `n`, then the factorization of what remains. */
  function Factors(n: nat): seq<nat>
    decreases n
  {
    if n <= 1 then []
    else
      var p := SmallestFactor(n);
      DivisorQuotient(p, n);
      MulAtLeast(n / p, p);
      [p] + Factors(n / p)
  }

  lemma {:induction false} FactorsArePrime(n: nat)
    ensures forall i :: 0 <= i < |Factors(n)| ==> IsPrime(Factors(n)[i])
    decreases n
  {
    if n > 1 {
      var p := SmallestFactor(n);
      DivisorQuotient(p, n);
      MulAtLeast(n / p, p);
      FactorsArePrime(n / p);
      var rest := Factors(n / p);
      assert Factors(n) == [p] + rest;
      forall i | 0 <= i < |Factors(n)|
        ensures IsPrime(Factors(n)[i])
      {
        if i > 0 {
          assert Factors(n)[i] == rest[i - 1];
        }
      }
    }
  }

  lemma {:induction false} FactorsProduct(n: nat)
    requires n >= 1
    ensures Product(Factors(n)) == n
    decreases n
  {
    if n > 1 {
      var p := SmallestFactor(n);
      DivisorQuotient(p, n);
      MulAtLeast(n / p, p);
      FactorsProduct(n / p);
      var rest := Factors(n / p);
      assert Factors(n) == [p] + rest;
      assert ([p] + rest)[1..] == rest;
      assert Product(Factors(n)) == p * (n / p);
    }
  }

  lemma {:induction false} FactorsDivide(n: nat)
    ensures forall i :: 0 <= i < |Factors(n)| ==> Divides(Factors(n)[i], n)
    decreases n
  {
    if n > 1 {
      var p := SmallestFactor(n);
      DivisorQuotient(p, n);
      MulAtLeast(n / p, p);
      FactorsDivide(n / p);
      var rest := Factors(n / p);
      assert Divides(n / p, n) by {
        assert n == (n / p) * p;
        MultipleIsDivisible(n / p, p);
      }
      forall i | 0 <= i < |rest|
        ensures Divides(rest[i], n)
      {
        DividesTrans(rest[i], n / p, n);
      }
    }
  }

  lemma {:induction false} FactorsSorted(n: nat)
    ensures Sorted(Factors(n))
    decreases n
  {
    if n > 1 {
      var p := SmallestFactor(n);
      DivisorQuotient(p, n);
      MulAtLeast(n / p, p);
      FactorsSorted(n / p);
      FactorsDivide(n);
      FactorsArePrime(n);
    }
  }

  /** The source's loop: while `n > 1`, push `buf[n]` and divide `n` by it. The
      table must cover `n` (indices past it would panic); `n <= 1` reads nothing. */
  method Factorize(pf: PrimeFactorizer, n: nat, factors: seq<nat>) returns (out: seq<nat>)
    requires IsSieve(pf.buf)
    requires n <= 1 || n < |pf.buf|
    ensures out == factors + Factors(n)
    ensures n <= 1 ==> out == factors
    ensures forall i :: |factors| <= i < |out| ==> IsPrime(out[i])
    ensures n >= 1 ==> Product(out[|factors|..]) == n
    ensures Sorted(out[|factors|..])
  {
    out := factors;
    var m: nat := n;
    while m > 1
      invariant m <= n
      invariant out + Factors(m) == factors + Factors(n)
      decreases m
    {
      var factor := pf.buf[m];
      FactorsStep(m, factor);
      out := out + [factor];
      m := m / factor;
    }
    AppendedFactors(factors, n, out);
  }

  /** One turn of the loop: `Factors(m)` starts with the table entry `f`. */
  lemma FactorsStep(m: nat, f: nat)
    requires m > 1 && f == SmallestFactor(m)
    ensures 1 <= m / f < m
    ensures Factors(m) == [f] + Factors(m / f)
  {
    DivisorQuotient(f, m);
    MulAtLeast(m / f, f);
  }

  lemma AppendedFactors(factors: seq<nat>, n: nat, out: seq<nat>)
    requires out == factors + Factors(n)
    ensures forall i :: |factors| <= i < |out| ==> IsPrime(out[i])
    ensures n >= 1 ==> Product(out[|factors|..]) == n
    ensures Sorted(out[|factors|..])
  {
    assert out[|factors|..] == Factors(n);
    FactorsArePrime(n);
    FactorsSorted(n);
    if n >= 1 {
      FactorsProduct(n);
    }
  }

  /** The unit test: a table up to 1000 factorizes 10 as `[2, 5]`. */
  method FactorizeTen() returns (factors: seq<nat>)
    ensures factors == [2, 5]
  {
    var pf := Prepare(1000);
    factors := Factorize(pf, 10, []);
    FactorsOfTen();
  }

  lemma FactorsOfTen()
    ensures Factors(10) == [2, 5]
  {
    assert SmallestFactor(10) == 2;
    assert SmallestFactor(5) == 5 by {
      assert SmallestFactorFrom(5, 2) == SmallestFactorFrom(5, 3) == SmallestFactorFrom(5, 4) == 5;
    }
    assert Factors(5) == [5] + Factors(1);
    assert Factors(10) == [2] + Factors(5);
  }
}

=== FILE: shortest_paths.dfy ===
/** All-pairs shortest paths by Floyd-Warshall over the graph of `Dag`
    (`floyd_warshall` in src/graph/dag.rs). Distances are `i64` values; `i64::MAX`
    stands for "no path", and relaxation adds with saturation. */
module ShortestPaths {
  import opened Int64
  import opened Dag

  /** The "unreachable" sentinel. */
  const INF: I64 := MAX

  type Matrix = seq<seq<I64>>

  predicate IsSquare(d: Matrix, n: nat) {
    |d| == n && forall i :: 0 <= i < n ==> |d[i]| == n
  }

  /** The cost of the last edge in `es` from `i` to `j`, or `dflt` when there is none. */
  function LastCost(es: seq<Edge>, i: nat, j: nat, dflt: I64): (c: I64)
    ensures c == dflt || exists e :: e in es && e.from == i && e.to == j && e.cost == c
  {
    if |es| == 0 then dflt
    else if es[|es| - 1].from == i && es[|es| - 1].to == j then es[|es| - 1].cost
    else LastCost(es[..|es| - 1], i, j, dflt)
  }

  /** Extending the written prefix by one edge changes only that edge's cell. */
  lemma LastCostStep(es: seq<Edge>, t: nat, i: nat, j: nat, dflt: I64)
    requires t < |es|
    ensures LastCost(es[..t + 1], i, j, dflt)
         == if es[t].from == i && es[t].to == j then es[t].cost else LastCost(es[..t], i, j, dflt)
  {
    assert es[..t + 1][..t] == es[..t];
  }

  /** A cell of the table before relaxation: 0 on the diagonal and "unreachable"
      elsewhere, overwritten by every edge in `edges()` order, so that the last of
      several parallel edges wins. */
  function InitialCell(g: Dag, i: nat, j: nat): I64 {
    LastCost(AllEdges(g), i, j, if i == j then 0 else INF)
  }

  /** `dp[i][j] = v`: one cell changes, every other cell keeps its value. */
  method WriteCell(dp: Matrix, n: nat, i: nat, j: nat, v: I64) returns (r: Matrix)
    requires IsSquare(dp, n) && i < n && j < n
    ensures IsSquare(r, n)
    ensures forall a, b :: 0 <= a < n && 0 <= b < n ==> r[a][b] == if a == i && b == j then v else dp[a][b]
  {
    var row: seq<I64> := dp[i][j := v];
    r := dp[i := row];
  }

  /** The table before any edge is written: 0 on the diagonal, "unreachable" elsewhere. */
  method BlankTable(n: nat) returns (dp: Matrix)
    ensures IsSquare(dp, n)
    ensures forall a, b :: 0 <= a < n && 0 <= b < n ==> dp[a][b] == if a == b then 0 else INF
  {
    dp := seq(n, _ => seq(n, _ => INF));
    for i := 0 to n
      invariant IsSquare(dp, n)
      invariant forall a, b :: 0 <= a < n && 0 <= b < n ==> dp[a][b] == if a == b && a < i then 0 else INF
    {
      dp := WriteCell(dp, n, i, i, 0);
    }
  }

  /** The first half of `floyd_warshall`: the `INF` table, the zero diagonal, then
      one write per edge. */
  method InitialTable(g: Dag) returns (dp: Matrix)
    requires Wellformed(g) && TargetsInRange(g)
    ensures IsSquare(dp, Size(g))
    ensures forall i, j :: 0 <= i < Size(g) && 0 <= j < Size(g) ==> dp[i][j] == InitialCell(g, i, j)
  {
    var n := Size(g);
    dp := BlankTable(n);
    var es := AllEdges(g);
    for t := 0 to |es|
      invariant IsSquare(dp, n)
      invariant forall a, b :: 0 <= a < n && 0 <= b < n ==>
                  dp[a][b] == LastCost(es[..t], a, b, if a == b then 0 else INF)
    {
      var e := es[t];
      dp := WriteCell(dp, n, e.from, e.to, e.cost);
      forall a, b | 0 <= a < n && 0 <= b < n
        ensures dp[a][b] == LastCost(es[..t + 1], a, b, if a == b then 0 else INF)
      {
        LastCostStep(es, t, a, b, if a == b then 0 else INF);
      }
    }
    assert es[..|es|] == es;
  }

  /** The starting table as a value: `InitialCell` in every cell. */
  function InitialMatrix(g: Dag): (d: Matrix)
    ensures IsSquare(d, Size(g))
  {
    seq(Size(g), (i: int) requires 0 <= i < Size(g) =>
      seq(Size(g), (j: int) requires 0 <= j < Size(g) => InitialCell(g, i, j)))
  }

  /** The `chmin` closure: keep the smaller of the cell and the candidate. */
  function Chmin(a: I64, b: I64): (r: I64)
    ensures r <= a && r <= b && (r == a || r == b)
  {
    if b < a then b else a
  }

  /** Cell `(i, j)` after relaxing through `k`, computed from the table `d`. */
  function Relaxed(d: Matrix, n: nat, i: nat, j: nat, k: nat): I64
    requires IsSquare(d, n) && i < n && j < n && k < n
  {
    Chmin(d[i][j], SaturatingAdd(d[i][k], d[k][j]))
  }

  ghost predicate NonNegative(d: Matrix, n: nat)
    requires IsSquare(d, n)
  {
    forall i, j :: 0 <= i < n && 0 <= j < n ==> d[i][j] >= 0
  }

  /** Every finite entry is the cost of an actual walk of `g`. */
  ghost predicate FiniteRealizable(g: Dag, d: Matrix, n: nat)
    requires IsSquare(d, n)
  {
    forall i, j :: 0 <= i < n && 0 <= j < n && d[i][j] < INF ==> Realizable(g, i, j, d[i][j])
  }

  ghost predicate Triangle(d: Matrix, n: nat, i: nat, m: nat, j: nat)
    requires IsSquare(d, n) && i < n && m < n && j < n
  {
    d[i][j] <= d[i][m] as int + d[m][j]
  }

  /** No detour through a vertex below `k` beats an entry. */
  ghost predicate TriangleBelow(d: Matrix, n: nat, k: nat)
    requires IsSquare(d, n)
  {
    forall i, m, j :: 0 <= i < n && 0 <= m < k && m < n && 0 <= j < n ==> Triangle(d, n, i, m, j)
  }

  /** `r` is `d` after a complete round through pivot `k`. */
  ghost predicate IsRound(d: Matrix, r: Matrix, n: nat, k: nat)
    requires IsSquare(d, n) && IsSquare(r, n) && k < n
  {
    forall i, j :: 0 <= i < n && 0 <= j < n ==> r[i][j] == Relaxed(d, n, i, j, k)
  }

  /** With non-negative entries a round leaves row `k` and column `k` as they are,
      so the order of updates inside the round does not matter. */
  lemma PivotFixed(d: Matrix, n: nat, k: nat)
    requires IsSquare(d, n) && k < n && NonNegative(d, n)
    ensures forall x :: 0 <= x < n ==> Relaxed(d, n, x, k, k) == d[x][k] && Relaxed(d, n, k, x, k) == d[k][x]
  {
  }

  /** Every cell holds its default (0 on the diagonal, `INF` elsewhere) or the cost
      of an edge between its two vertices: what any way of writing the edges into
      the blank table leaves behind. */
  ghost predicate EdgeOrDefault(g: Dag, d: Matrix, n: nat)
    requires IsSquare(d, n)
  {
    forall i, j :: 0 <= i < n && 0 <= j < n ==>
      || d[i][j] == (if i == j then 0 else INF)
      || exists e :: e in AllEdges(g) && e.from == i && e.to == j && e.cost == d[i][j]
  }

  /** With non-negative costs a starting table is non-negative and each finite entry
      is the cost of the empty walk or of one edge. */
  lemma InitialFacts(g: Dag, dp: Matrix)
    requires Wellformed(g) && NonNegativeCosts(g)
    requires IsSquare(dp, Size(g)) && EdgeOrDefault(g, dp, Size(g))
    ensures NonNegative(dp, Size(g)) && FiniteRealizable(g, dp, Size(g))
  {
    var n := Size(g);
    forall i, j | 0 <= i < n && 0 <= j < n
      ensures dp[i][j] >= 0
      ensures dp[i][j] < INF ==> Realizable(g, i, j, dp[i][j])
    {
      if dp[i][j] == (if i == j then 0 else INF) {
        if i == j {
          assert IsWalk(g, i, j, []) && WalkCost([]) == 0;
        }
      } else {
        var e :| e in AllEdges(g) && e.from == i && e.to == j && e.cost == dp[i][j];
        assert IsWalk(g, i, j, [e]) by {
          assert [e][1..] == [];
        }
        assert WalkCost([e]) == dp[i][j];
      }
    }
  }

  lemma RoundNonNegative(d: Matrix, r: Matrix, n: nat, k: nat)
    requires IsSquare(d, n) && IsSquare(r, n) && k < n
    requires NonNegative(d, n) && IsRound(d, r, n, k)
    ensures NonNegative(r, n)
  {
  }

  /** A round only introduces sums of two realizable entries, which are realizable. */
  lemma RoundRealizable(g: Dag, d: Matrix, r: Matrix, n: nat, k: nat)
    requires IsSquare(d, n) && IsSquare(r, n) && k < n
    requires NonNegative(d, n) && FiniteRealizable(g, d, n) && IsRound(d, r, n, k)
    ensures FiniteRealizable(g, r, n)
  {
    forall i, j | 0 <= i < n && 0 <= j < n && r[i][j] < INF
      ensures Realizable(g, i, j, r[i][j])
    {
      if r[i][j] != d[i][j] {
        assert r[i][j] == d[i][k] as int + d[k][j];
        RealizableConcat(g, i, k, j, d[i][k], d[k][j]);
      }
    }
  }

  /** A round through `k` extends the triangle inequality from the pivots below `k`
      to the pivots up to `k` (the case analysis of the textbook proof). */
  lemma RoundTriangle(d: Matrix, r: Matrix, n: nat, k: nat)
    requires IsSquare(d, n) && IsSquare(r, n) && k < n
    requires NonNegative(d, n) && TriangleBelow(d, n, k) && IsRound(d, r, n, k)
    ensures TriangleBelow(r, n, k + 1)
  {
    PivotFixed(d, n, k);
    forall i, m, j | 0 <= i < n && 0 <= m < k + 1 && m < n && 0 <= j < n
      ensures Triangle(r, n, i, m, j)
    {
      RoundTriangleAt(d, r, n, k, i, m, j);
    }
  }

  lemma RoundTriangleAt(d: Matrix, r: Matrix, n: nat, k: nat, i: nat, m: nat, j: nat)
    requires IsSquare(d, n) && IsSquare(r, n) && k < n && i < n && m <= k && j < n
    requires NonNegative(d, n) && TriangleBelow(d, n, k) && IsRound(d, r, n, k)
    requires forall x :: 0 <= x < n ==> r[x][k] == d[x][k] && r[k][x] == d[k][x]
    ensures Triangle(r, n, i, m, j)
  {
    assert r[i][j] == Relaxed(d, n, i, j, k);
    assert r[i][j] <= d[i][k] as int + d[k][j];
    if m < k {
      assert r[i][m] == Relaxed(d, n, i, m, k);
      assert r[m][j] == Relaxed(d, n, m, j, k);
      assert Triangle(d, n, k, m, j);
      assert Triangle(d, n, i, m, k);
      assert Triangle(d, n, i, m, j);
    }
  }

  /** One round of the triple loop: every cell `(i, j)`, row by row, is lowered to
      `dp[i][k] + dp[k][j]` (saturating) when that is smaller. No cell grows; on a
      non-negative table the round equals the simultaneous relaxation `IsRound`. */
  method RelaxThrough(dp: Matrix, n: nat, k: nat) returns (r: Matrix)
    requires IsSquare(dp, n) && k < n
    ensures IsSquare(r, n)
    ensures forall a, b :: 0 <= a < n && 0 <= b < n ==> r[a][b] <= dp[a][b]
    ensures NonNegative(dp, n) ==> IsRound(dp, r, n, k)
  {
    if NonNegative(dp, n) {
      PivotFixed(dp, n, k);
    }
    r := dp;
    for i := 0 to n
      invariant IsSquare(r, n)
      invariant forall a, b :: 0 <= a < n && 0 <= b < n ==> r[a][b] <= dp[a][b]
      invariant NonNegative(dp, n) ==>
        forall a, b :: 0 <= a < n && 0 <= b < n ==> r[a][b] == if a < i then Relaxed(dp, n, a, b, k) else dp[a][b]
    {
      for j := 0 to n
        invariant IsSquare(r, n)
        invariant forall a, b :: 0 <= a < n && 0 <= b < n ==> r[a][b] <= dp[a][b]
        invariant NonNegative(dp, n) ==>
          forall a, b :: 0 <= a < n && 0 <= b < n ==>
            r[a][b] == if a < i || (a == i && b < j) then Relaxed(dp, n, a, b, k) else dp[a][b]
      {
        var cost := SaturatingAdd(r[i][k], r[k][j]);
        var row: seq<I64> := r[i][j := Chmin(r[i][j], cost)];
        r := r[i := row];
      }
    }
  }

  /** The table after a complete round through `k`, every cell computed from `d`. */
  function Round(d: Matrix, n: nat, k: nat): (r: Matrix)
    requires IsSquare(d, n) && k < n
    ensures IsSquare(r, n)
  {
    seq(n, (i: int) requires 0 <= i < n => seq(n, (j: int) requires 0 <= j < n => Relaxed(d, n, i, j, k)))
  }

  /** Floyd-Warshall as a function: the rounds through the pivots `0 .. k - 1`, each
      computed from the table the previous one left. */
  function Rounds(d: Matrix, n: nat, k: nat): (r: Matrix)
    requires IsSquare(d, n) && k <= n
    ensures IsSquare(r, n)
    decreases k
  {
    if k == 0 then d else Round(Rounds(d, n, k - 1), n, k - 1)
  }

  /** A table that satisfies `IsRound` is the round. */
  lemma RoundIs(d: Matrix, r: Matrix, n: nat, k: nat)
    requires IsSquare(d, n) && IsSquare(r, n) && k < n && IsRound(d, r, n, k)
    ensures r == Round(d, n, k)
  {
    var q := Round(d, n, k);
    forall i | 0 <= i < n
      ensures r[i] == q[i]
    {
      assert forall j :: 0 <= j < n ==> r[i][j] == q[i][j];
    }
  }

  /** On a non-negative table every round keeps the entries non-negative, the finite
      ones realizable, and after the rounds through `0 .. k - 1` no detour through
      those pivots improves an entry. */
  lemma {:induction false} RoundsFacts(g: Dag, d: Matrix, n: nat, k: nat)
    requires IsSquare(d, n) && k <= n && NonNegative(d, n)
    ensures NonNegative(Rounds(d, n, k), n) && TriangleBelow(Rounds(d, n, k), n, k)
    ensures FiniteRealizable(g, d, n) ==> FiniteRealizable(g, Rounds(d, n, k), n)
    decreases k
  {
    if k > 0 {
      RoundsFacts(g, d, n, k - 1);
      var p := Rounds(d, n, k - 1);
      var r := Round(p, n, k - 1);
      assert IsRound(p, r, n, k - 1);
      RoundNonNegative(p, r, n, k - 1);
      RoundTriangle(p, r, n, k - 1);
      if FiniteRealizable(g, d, n) {
        RoundRealizable(g, p, r, n, k - 1);
      }
    }
  }

  /** The triple loop of `floyd_warshall` on a given starting table, one in-place
      round per pivot. No cell grows; on a non-negative table the result is the
      functional `Rounds` through all pivots. */
  method Relax(init: Matrix, n: nat) returns (sp: Matrix)
    requires IsSquare(init, n)
    ensures IsSquare(sp, n)
    ensures forall a, b :: 0 <= a < n && 0 <= b < n ==> sp[a][b] <= init[a][b]
    ensures NonNegative(init, n) ==> sp == Rounds(init, n, n)
  {
    sp := init;
    for k := 0 to n
      invariant IsSquare(sp, n)
      invariant forall a, b :: 0 <= a < n && 0 <= b < n ==> sp[a][b] <= init[a][b]
      invariant NonNegative(init, n) ==> sp == Rounds(init, n, k) && NonNegative(sp, n)
    {
      ghost var d := sp;
      sp := RelaxThrough(sp, n, k);
      if NonNegative(init, n) {
        RoundIs(d, sp, n, k);
        RoundNonNegative(d, sp, n, k);
      }
    }
  }

  /** The facts a relaxed table inherits from a non-negative starting table whose
      finite entries are realizable. */
  lemma RelaxedFacts(g: Dag, init: Matrix, sp: Matrix, n: nat)
    requires IsSquare(init, n) && NonNegative(init, n) && FiniteRealizable(g, init, n)
    requires IsSquare(sp, n) && sp == Rounds(init, n, n)
    ensures NonNegative(sp, n) && FiniteRealizable(g, sp, n) && TriangleBelow(sp, n, n)
    ensures forall i, k, j :: 0 <= i < n && 0 <= k < n && 0 <= j < n ==> sp[i][j] <= SaturatingAdd(sp[i][k], sp[k][j])
  {
    RoundsFacts(g, init, n, n);
    forall i, k, j | 0 <= i < n && 0 <= k < n && 0 <= j < n
      ensures sp[i][j] <= SaturatingAdd(sp[i][k], sp[k][j])
    {
      assert Triangle(sp, n, i, k, j);
    }
  }

  /** `floyd_warshall`: the initial table relaxed through every pivot `k` with
      `chmin` and `saturating_add`. Every cell only decreases from its initial value.
      With non-negative costs the result is the functional `Rounds` of the starting
      table, it is non-negative, every finite entry is the cost of a real walk (so
      unreachable pairs stay at `i64::MAX`), and no entry can be improved by a
      detour through any vertex. */
  method FloydWarshall(g: Dag) returns (sp: Matrix)
    requires Wellformed(g) && TargetsInRange(g)
    ensures IsSquare(sp, Size(g))
    ensures forall i, j :: 0 <= i < Size(g) && 0 <= j < Size(g) ==> sp[i][j] <= InitialCell(g, i, j)
    ensures NonNegativeCosts(g) ==> sp == Rounds(InitialMatrix(g), Size(g), Size(g))
    ensures NonNegativeCosts(g) ==> forall i, j :: 0 <= i < Size(g) && 0 <= j < Size(g) ==> sp[i][j] >= 0
    ensures NonNegativeCosts(g) ==>
      forall i, j :: 0 <= i < Size(g) && 0 <= j < Size(g) && sp[i][j] < INF ==> Realizable(g, i, j, sp[i][j])
    ensures NonNegativeCosts(g) ==>
      forall i, j :: 0 <= i < Size(g) && 0 <= j < Size(g) && !Reachable(g, i, j) ==> sp[i][j] == INF
    ensures NonNegativeCosts(g) ==>
      forall i, k, j :: 0 <= i < Size(g) && 0 <= k < Size(g) && 0 <= j < Size(g) ==>
        sp[i][j] <= SaturatingAdd(sp[i][k], sp[k][j])
  {
    var n := Size(g);
    var init := InitialTable(g);
    assert init == InitialMatrix(g) by {
      var m := InitialMatrix(g);
      forall i | 0 <= i < n
        ensures init[i] == m[i]
      {
        assert forall j :: 0 <= j < n ==> init[i][j] == m[i][j];
      }
    }
    sp := Relax(init, n);
    if NonNegativeCosts(g) {
      assert EdgeOrDefault(g, init, n) by {
        forall i, j | 0 <= i < n && 0 <= j < n
          ensures init[i][j] == (if i == j then 0 else INF)
               || exists e :: e in AllEdges(g) && e.from == i && e.to == j && e.cost == init[i][j]
        {
          assert init[i][j] == LastCost(AllEdges(g), i, j, if i == j then 0 else INF);
        }
      }
      InitialFacts(g, init);
      RelaxedFacts(g, init, sp, n);
    }
  }

  /** The graph of the unit test, as its adjacency lists. */
  function ExampleGraph(): Dag {
    Dag([[Edge(0, 1, 5), Edge(0, 2, 2)], [Edge(1, 3, 4)], [Edge(2, 1, 2), Edge(2, 3, 3)], []])
  }

  /** Building the test graph edge by edge, as the test does, yields `ExampleGraph`. */
  lemma ExampleGraphBuilt()
    ensures AddEdge(AddEdge(AddEdge(AddEdge(AddEdge(New(4), 0, 1, 5), 0, 2, 2), 1, 3, 4), 2, 1, 2), 2, 3, 3)
         == ExampleGraph()
  {
    var g0 := New(4);
    var g1 := AddEdge(g0, 0, 1, 5);
    var g2 := AddEdge(g1, 0, 2, 2);
    var g3 := AddEdge(g2, 1, 3, 4);
    var g4 := AddEdge(g3, 2, 1, 2);
    var g5 := AddEdge(g4, 2, 3, 3);
    assert g5.edges[0] == [Edge(0, 1, 5), Edge(0, 2, 2)] by {
      assert g2.edges[0] == [] + [Edge(0, 1, 5)] + [Edge(0, 2, 2)];
    }
    assert g5.edges[1] == [Edge(1, 3, 4)] by {
      assert g3.edges[1] == [] + [Edge(1, 3, 4)];
    }
    assert g5.edges[2] == [Edge(2, 1, 2), Edge(2, 3, 3)] by {
      assert g5.edges[2] == [] + [Edge(2, 1, 2)] + [Edge(2, 3, 3)];
    }
    assert g5.edges[3] == [];
    assert g5.edges == ExampleGraph().edges;
  }

  lemma ExampleGraphShape()
    ensures Size(ExampleGraph()) == 4
    ensures Wellformed(ExampleGraph()) && TargetsInRange(ExampleGraph()) && NonNegativeCosts(ExampleGraph())
  {
    ExampleGraphBuilt();
  }

  lemma ExampleAllEdges()
    ensures AllEdges(ExampleGraph())
         == [Edge(0, 1, 5), Edge(0, 2, 2), Edge(1, 3, 4), Edge(2, 1, 2), Edge(2, 3, 3)]
  {
    var ss := ExampleGraph().edges;
    assert Flatten(ss[3..]) == [] by {
      assert ss[3..][1..] == [];
    }
    assert ss[2..][1..] == ss[3..];
    assert ss[1..][1..] == ss[2..];
  }

  /** The direct costs the test's shortest routes use. */
  lemma ExampleInitialCells()
    ensures InitialCell(ExampleGraph(), 0, 2) == 2
    ensures InitialCell(ExampleGraph(), 2, 1) == 2
    ensures InitialCell(ExampleGraph(), 2, 3) == 3
  {
    ExampleAllEdges();
    var es := AllEdges(ExampleGraph());
    var e4 := [Edge(0, 1, 5), Edge(0, 2, 2), Edge(1, 3, 4), Edge(2, 1, 2)];
    var e3 := [Edge(0, 1, 5), Edge(0, 2, 2), Edge(1, 3, 4)];
    var e2 := [Edge(0, 1, 5), Edge(0, 2, 2)];
    assert es[..4] == e4 && e4[..3] == e3 && e3[..2] == e2;
    assert LastCost(e2, 0, 2, INF) == 2;
    assert LastCost(e3, 0, 2, INF) == 2;
    assert LastCost(e4, 0, 2, INF) == 2;
    assert LastCost(es, 0, 2, INF) == 2;
    assert LastCost(e4, 2, 1, INF) == 2;
    assert LastCost(es, 2, 1, INF) == 2;
    assert LastCost(es, 2, 3, INF) == 3;
  }

  /** The potential `[0, 4, 2, 5]` never drops by more than an edge's cost. */
  lemma ExamplePotential(es: seq<Edge>)
    requires es == [Edge(0, 1, 5), Edge(0, 2, 2), Edge(1, 3, 4), Edge(2, 1, 2), Edge(2, 3, 3)]
    ensures forall e :: e in es ==> e.from < 4 && e.to < 4 && [0, 4, 2, 5][e.to] <= [0, 4, 2, 5][e.from] + e.cost
  {
  }

  /** No walk of the test graph from 0 reaches 1 for less than 4, or 3 for less than 5. */
  lemma ExampleLowerBounds(w: seq<Edge>, v: nat)
    requires v == 1 || v == 3
    requires IsWalk(ExampleGraph(), 0, v, w)
    ensures WalkCost(w) >= if v == 1 then 4 else 5
  {
    ExampleGraphShape();
    ExampleAllEdges();
    ExamplePotential(AllEdges(ExampleGraph()));
    var h := [0, 4, 2, 5];
    PotentialBound(ExampleGraph(), h, 0, v, w);
    assert h[v] - h[0] == if v == 1 then 4 else 5;
  }

  /** Any table with the guarantees `floyd_warshall` gives on the test graph holds
      the test's two distances. */
  lemma ExampleDistances(sp: Matrix)
    requires IsSquare(sp, 4)
    requires forall i, j :: 0 <= i < 4 && 0 <= j < 4 ==> sp[i][j] <= InitialCell(ExampleGraph(), i, j)
    requires forall i, j :: 0 <= i < 4 && 0 <= j < 4 && sp[i][j] < INF ==> Realizable(ExampleGraph(), i, j, sp[i][j])
    requires forall i, k, j :: 0 <= i < 4 && 0 <= k < 4 && 0 <= j < 4 ==> sp[i][j] <= SaturatingAdd(sp[i][k], sp[k][j])
    ensures sp[0][3] == 5 && sp[0][1] == 4
  {
    ExampleInitialCells();
    assert sp[0][1] <= 4 && sp[0][3] <= 5 by {
      assert sp[0][1] <= SaturatingAdd(sp[0][2], sp[2][1]);
      assert sp[0][3] <= SaturatingAdd(sp[0][2], sp[2][3]);
    }
    assert Realizable(ExampleGraph(), 0, 1, sp[0][1]);
    var w1 :| IsWalk(ExampleGraph(), 0, 1, w1) && WalkCost(w1) == sp[0][1];
    ExampleLowerBounds(w1, 1);
    assert Realizable(ExampleGraph(), 0, 3, sp[0][3]);
    var w3 :| IsWalk(ExampleGraph(), 0, 3, w3) && WalkCost(w3) == sp[0][3];
    ExampleLowerBounds(w3, 3);
  }

  /** The unit test: on the four-vertex graph the route 0 -> 2 -> 1 (cost 4) beats
      the direct edge of cost 5, and 0 -> 2 -> 3 costs 5. */
  method FloydWarshallExample() returns (sp: Matrix)
    ensures IsSquare(sp, 4)
    ensures sp[0][3] == 5 && sp[0][1] == 4
  {
    var g := New(4);
    g := AddEdge(g, 0, 1, 5);
    g := AddEdge(g, 0, 2, 2);
    g := AddEdge(g, 1, 3, 4);
    g := AddEdge(g, 2, 1, 2);
    g := AddEdge(g, 2, 3, 3);
    ExampleGraphBuilt();
    sp := FloydWarshall(g);
    ExampleDistances(sp);
  }

  // The initialisation writes `dp[from][to] = cost` for every edge, so a self-loop
  // replaces the 0 on the diagonal and a later parallel edge replaces a cheaper
  // earlier one. The two examples below exhibit that; the corrected variant keeps
  // the cheapest value with `chmin`, and its entries are shortest walk costs.

  /** One vertex with a self-loop of cost 1. */
  function SelfLoopGraph(): Dag {
    Dag([[Edge(0, 0, 1)]])
  }

  /** Two vertices, an edge `0 -> 1` of cost 1, then a parallel one of cost 2. */
  function ParallelGraph(): Dag {
    Dag([[Edge(0, 1, 1), Edge(0, 1, 2)], []])
  }

  lemma SelfLoopBuilt()
    ensures AddEdge(New(1), 0, 0, 1) == SelfLoopGraph()
  {
    var g := AddEdge(New(1), 0, 0, 1);
    assert g.edges[0] == [] + [Edge(0, 0, 1)] == [Edge(0, 0, 1)];
    assert g.edges == [[Edge(0, 0, 1)]];
  }

  lemma SelfLoopTable()
    ensures InitialMatrix(SelfLoopGraph()) == [[1]]
    ensures Rounds([[1]], 1, 1) == [[1]]
  {
    var g := SelfLoopGraph();
    assert g.edges[1..] == [];
    assert AllEdges(g) == [Edge(0, 0, 1)];
    assert InitialCell(g, 0, 0) == 1;
    assert InitialMatrix(g)[0] == [1];
    assert Relaxed([[1]], 1, 0, 0, 0) == 1;
    assert Round([[1]], 1, 0)[0] == [1];
  }

  /** As written, the self-loop leaves distance 1 from vertex 0 to itself, although
      the empty walk costs 0. */
  method SelfLoopAsWritten() returns (sp: Matrix)
    ensures IsSquare(sp, 1) && sp[0][0] == 1
    ensures IsWalk(SelfLoopGraph(), 0, 0, []) && WalkCost([]) == 0
  {
    var g := New(1);
    g := AddEdge(g, 0, 0, 1);
    SelfLoopBuilt();
    SelfLoopTable();
    sp := FloydWarshall(g);
  }

  lemma ParallelBuilt()
    ensures AddEdge(AddEdge(New(2), 0, 1, 1), 0, 1, 2) == ParallelGraph()
  {
    var g1 := AddEdge(New(2), 0, 1, 1);
    var g2 := AddEdge(g1, 0, 1, 2);
    assert g1.edges[0] == [] + [Edge(0, 1, 1)] == [Edge(0, 1, 1)];
    assert g2.edges[0] == [Edge(0, 1, 1)] + [Edge(0, 1, 2)] == [Edge(0, 1, 1), Edge(0, 1, 2)];
    assert g2.edges[1] == [];
    assert g2.edges == [[Edge(0, 1, 1), Edge(0, 1, 2)], []];
  }

  lemma ParallelAllEdges()
    ensures AllEdges(ParallelGraph()) == [Edge(0, 1, 1), Edge(0, 1, 2)]
  {
    var g := ParallelGraph();
    assert g.edges[1..][1..] == [];
    assert Flatten(g.edges[1..]) == [];
  }

  lemma ParallelCells()
    ensures InitialCell(ParallelGraph(), 0, 0) == 0 && InitialCell(ParallelGraph(), 0, 1) == 2
    ensures InitialCell(ParallelGraph(), 1, 0) == INF && InitialCell(ParallelGraph(), 1, 1) == 0
  {
    ParallelAllEdges();
    var es := AllEdges(ParallelGraph());
    var e1 := [Edge(0, 1, 1)];
    assert es[..1] == e1 && e1[..0] == [];
    assert LastCost(e1, 0, 0, 0) == 0 && LastCost(es, 0, 0, 0) == 0;
    assert LastCost(e1, 1, 0, INF) == INF && LastCost(es, 1, 0, INF) == INF;
    assert LastCost(e1, 1, 1, 0) == 0 && LastCost(es, 1, 1, 0) == 0;
  }

  lemma ParallelInitial()
    ensures InitialMatrix(ParallelGraph()) == [[0, 2], [INF, 0]]
  {
    var g := ParallelGraph();
    var m := InitialMatrix(g);
    assert m[0] == [0, 2] by {
      ParallelCells();
      assert m[0][0] == InitialCell(g, 0, 0) && m[0][1] == InitialCell(g, 0, 1);
    }
    assert m[1] == [INF, 0] by {
      ParallelCells();
      assert m[1][0] == InitialCell(g, 1, 0) && m[1][1] == InitialCell(g, 1, 1);
    }
  }

  lemma ParallelRounds()
    ensures Rounds([[0, 2], [INF, 0]], 2, 2)[0][1] == 2
  {
    var d: Matrix := [[0, 2], [INF, 0]];
    var r1 := Round(d, 2, 0);
    assert r1[0][1] == Relaxed(d, 2, 0, 1, 0) == 2;
    assert r1[1][1] == Relaxed(d, 2, 1, 1, 0) == 0;
    assert Rounds(d, 2, 1) == r1;
    assert Round(r1, 2, 1)[0][1] == Relaxed(r1, 2, 0, 1, 1) == 2;
  }

  /** The first parallel edge on its own is a walk of cost 1. */
  lemma ParallelCheapWalk()
    ensures IsWalk(ParallelGraph(), 0, 1, [Edge(0, 1, 1)]) && WalkCost([Edge(0, 1, 1)]) == 1
  {
    assert [Edge(0, 1, 1)][1..] == [];
    assert Edge(0, 1, 1) in ParallelGraph().edges[0];
  }

  /** As written, the later parallel edge of cost 2 wins: distance 2 from 0 to 1,
      although the first edge alone costs 1. */
  method ParallelAsWritten() returns (sp: Matrix)
    ensures IsSquare(sp, 2) && sp[0][1] == 2
    ensures IsWalk(ParallelGraph(), 0, 1, [Edge(0, 1, 1)]) && WalkCost([Edge(0, 1, 1)]) == 1
  {
    var g := New(2);
    g := AddEdge(g, 0, 1, 1);
    g := AddEdge(g, 0, 1, 2);
    ParallelBuilt();
    ParallelInitial();
    ParallelRounds();
    ParallelCheapWalk();
    sp := FloydWarshall(g);
  }

  /** The cheapest of the edges in `es` from `i` to `j` and `dflt`. */
  function MinCost(es: seq<Edge>, i: nat, j: nat, dflt: I64): (c: I64)
    ensures c <= dflt
    ensures forall e :: e in es && e.from == i && e.to == j ==> c <= e.cost
    ensures c == dflt || exists e :: e in es && e.from == i && e.to == j && e.cost == c
  {
    if |es| == 0 then dflt
    else
      var e := es[|es| - 1];
      var c := MinCost(es[..|es| - 1], i, j, dflt);
      assert es == es[..|es| - 1] + [e];
      if e.from == i && e.to == j then Chmin(c, e.cost) else c
  }

  lemma MinCostStep(es: seq<Edge>, t: nat, i: nat, j: nat, dflt: I64)
    requires t < |es|
    ensures MinCost(es[..t + 1], i, j, dflt)
         == if es[t].from == i && es[t].to == j then Chmin(MinCost(es[..t], i, j, dflt), es[t].cost)
            else MinCost(es[..t], i, j, dflt)
  {
    assert es[..t + 1][..t] == es[..t];
  }

  /** A corrected starting cell: the cheapest of 0 (on the diagonal) or "unreachable"
      and every edge from `i` to `j`. */
  function InitialCellMin(g: Dag, i: nat, j: nat): I64 {
    MinCost(AllEdges(g), i, j, if i == j then 0 else INF)
  }

  /** Writing edge `t` with `chmin` turns the table of the first `t` edges into the
      table of the first `t + 1`. */
  lemma MinWrite(es: seq<Edge>, t: nat, n: nat, before: Matrix, after: Matrix)
    requires t < |es| && es[t].from < n && es[t].to < n && IsSquare(before, n) && IsSquare(after, n)
    requires forall a, b :: 0 <= a < n && 0 <= b < n ==>
               before[a][b] == MinCost(es[..t], a, b, if a == b then 0 else INF)
    requires forall a, b :: 0 <= a < n && 0 <= b < n ==>
               after[a][b] == if a == es[t].from && b == es[t].to then Chmin(before[a][b], es[t].cost) else before[a][b]
    ensures forall a, b :: 0 <= a < n && 0 <= b < n ==>
              after[a][b] == MinCost(es[..t + 1], a, b, if a == b then 0 else INF)
  {
    forall a, b | 0 <= a < n && 0 <= b < n
      ensures after[a][b] == MinCost(es[..t + 1], a, b, if a == b then 0 else INF)
    {
      MinCostStep(es, t, a, b, if a == b then 0 else INF);
    }
  }

  /** The corrected first half: each edge is written with `chmin`. */
  method InitialTableMin(g: Dag) returns (dp: Matrix)
    requires Wellformed(g) && TargetsInRange(g)
    ensures IsSquare(dp, Size(g))
    ensures forall i, j :: 0 <= i < Size(g) && 0 <= j < Size(g) ==> dp[i][j] == InitialCellMin(g, i, j)
  {
    var n := Size(g);
    dp := BlankTable(n);
    var es := AllEdges(g);
    for t := 0 to |es|
      invariant IsSquare(dp, n)
      invariant forall a, b :: 0 <= a < n && 0 <= b < n ==>
                  dp[a][b] == MinCost(es[..t], a, b, if a == b then 0 else INF)
    {
      var e := es[t];
      ghost var before := dp;
      dp := WriteCell(dp, n, e.from, e.to, Chmin(dp[e.from][e.to], e.cost));
      MinWrite(es, t, n, before, dp);
    }
    assert es[..|es|] == es;
  }

  /** A non-negative table that no detour improves and that no edge undercuts is at
      most the cost of every walk. */
  lemma {:induction false} WalkBound(g: Dag, sp: Matrix, n: nat, i: nat, j: nat, w: seq<Edge>)
    requires Wellformed(g) && TargetsInRange(g) && n == Size(g)
    requires IsSquare(sp, n) && NonNegative(sp, n) && TriangleBelow(sp, n, n)
    requires forall a, b :: 0 <= a < n && 0 <= b < n ==> sp[a][b] <= InitialCellMin(g, a, b)
    requires i < n && j < n && IsWalk(g, i, j, w)
    ensures sp[i][j] <= WalkCost(w)
    decreases |w|
  {
    if |w| == 0 {
      assert sp[i][i] <= InitialCellMin(g, i, i);
    } else {
      var e := w[0];
      assert e in AllEdges(g) by {
        var k :| 0 <= k < |g.edges[e.from]| && g.edges[e.from][k] == e;
      }
      var m := e.to;
      assert m < n;
      WalkBound(g, sp, n, m, j, w[1..]);
      assert sp[i][m] <= e.cost by {
        assert sp[i][m] <= InitialCellMin(g, i, m);
      }
      assert Triangle(sp, n, i, m, j);
    }
  }

  /** Floyd-Warshall with the corrected start. With non-negative costs every finite
      entry is the cost of a walk, and every entry is at most the cost of every
      walk: a finite entry is the shortest distance. An entry is `i64::MAX` when
      there is no walk, or when every walk costs at least `i64::MAX` (saturation). */
  method FloydWarshallMin(g: Dag) returns (sp: Matrix)
    requires Wellformed(g) && TargetsInRange(g)
    ensures IsSquare(sp, Size(g))
    ensures forall i, j :: 0 <= i < Size(g) && 0 <= j < Size(g) ==> sp[i][j] <= InitialCellMin(g, i, j)
    ensures NonNegativeCosts(g) ==> forall i, j :: 0 <= i < Size(g) && 0 <= j < Size(g) ==> sp[i][j] >= 0
    ensures NonNegativeCosts(g) ==>
      forall i, j :: 0 <= i < Size(g) && 0 <= j < Size(g) && sp[i][j] < INF ==> Realizable(g, i, j, sp[i][j])
    ensures NonNegativeCosts(g) ==>
      forall i, j :: 0 <= i < Size(g) && 0 <= j < Size(g) && !Reachable(g, i, j) ==> sp[i][j] == INF
    ensures NonNegativeCosts(g) ==>
      forall i, j, w :: 0 <= i < Size(g) && 0 <= j < Size(g) && IsWalk(g, i, j, w) ==> sp[i][j] <= WalkCost(w)
  {
    var n := Size(g);
    var init := InitialTableMin(g);
    sp := Relax(init, n);
    if NonNegativeCosts(g) {
      assert EdgeOrDefault(g, init, n) by {
        forall i, j | 0 <= i < n && 0 <= j < n
          ensures init[i][j] == (if i == j then 0 else INF)
               || exists e :: e in AllEdges(g) && e.from == i && e.to == j && e.cost == init[i][j]
        {
          assert init[i][j] == MinCost(AllEdges(g), i, j, if i == j then 0 else INF);
        }
      }
      InitialFacts(g, init);
      RelaxedFacts(g, init, sp, n);
      forall i, j, w | 0 <= i < n && 0 <= j < n && IsWalk(g, i, j, w)
        ensures sp[i][j] <= WalkCost(w)
      {
        WalkBound(g, sp, n, i, j, w);
      }
    }
  }

  /** With the correction the self-loop no longer hides the empty walk. */
  method SelfLoopCorrected() returns (sp: Matrix)
    ensures IsSquare(sp, 1) && sp[0][0] == 0
  {
    var g := New(1);
    g := AddEdge(g, 0, 0, 1);
    sp := FloydWarshallMin(g);
    assert IsWalk(g, 0, 0, []);
  }

  lemma ParallelPotential(es: seq<Edge>)
    requires es == [Edge(0, 1, 1), Edge(0, 1, 2)]
    ensures forall e :: e in es ==> e.from < 2 && e.to < 2 && [0, 1][e.to] <= [0, 1][e.from] + e.cost
  {
  }

  /** Every walk from 0 to 1 in the parallel-edge graph costs at least 1. */
  lemma ParallelLowerBound(w: seq<Edge>)
    requires IsWalk(ParallelGraph(), 0, 1, w)
    ensures WalkCost(w) >= 1
  {
    ParallelBuilt();
    ParallelAllEdges();
    ParallelPotential(AllEdges(ParallelGraph()));
    PotentialBound(ParallelGraph(), [0, 1], 0, 1, w);
  }

  /** With the correction the cheaper parallel edge counts. */
  method ParallelCorrected() returns (sp: Matrix)
    ensures IsSquare(sp, 2) && sp[0][1] == 1
  {
    var g := New(2);
    g := AddEdge(g, 0, 1, 1);
    g := AddEdge(g, 0, 1, 2);
    ParallelBuilt();
    sp := FloydWarshallMin(g);
    ParallelCheapWalk();
    ghost var w :| IsWalk(g, 0, 1, w) && WalkCost(w) == sp[0][1];
    ParallelLowerBound(w);
  }
}

=== FILE: unionfind.dfy ===
/** A disjoint-set forest over `0..n` with union by size (src/collections/unionfind.rs). */
module UnionFind {
  import opened Wrappers

  datatype UnionResult = Unified | AlreadyUnified

  /** `parent[i] == None` marks a root; `size[i]` is the number of elements in the
      tree of `i` while `i` is a root, and is left as it was once `i` is attached. */
  datatype UnionFind = UnionFind(parent: seq<Option<nat>>, size: seq<nat>)

  /** The shape union by size keeps: every parent link stays inside the forest and
      leads to a strictly larger size, and sizes lie in `1..n`. Together these bound
      every walk towards a root. */
  ghost predicate Shaped(uf: UnionFind) {
    && |uf.parent| == |uf.size|
    && (forall i :: 0 <= i < |uf.size| ==> 1 <= uf.size[i] <= |uf.size|)
    && (forall i :: 0 <= i < |uf.parent| && uf.parent[i].Some? ==>
          uf.parent[i].value < |uf.parent| && uf.size[i] < uf.size[uf.parent[i].value])
  }

  /** The representative of `x`: follow parent links until a root. */
  function Root(uf: UnionFind, x: nat): (r: nat)
    requires Shaped(uf) && x < |uf.parent|
    ensures r < |uf.parent| && uf.parent[r].None?
    ensures (r == x) == uf.parent[x].None?
    ensures uf.size[x] <= uf.size[r]
    decreases |uf.size| - uf.size[x]
  {
    match uf.parent[x]
    case None => x
    case Some(p) => Root(uf, p)
  }

  /** The elements whose representative is `r`. */
  ghost function Members(uf: UnionFind, r: nat): set<nat>
    requires Shaped(uf)
  {
    set z: nat | z < |uf.parent| && Root(uf, z) == r
  }

  /** The full invariant: the shape, and the size of every root counts its members. */
  ghost predicate Valid(uf: UnionFind) {
    && Shaped(uf)
    && forall r :: 0 <= r < |uf.parent| && uf.parent[r].None? ==> uf.size[r] == |Members(uf, r)|
  }

  /** `n` singleton sets. */
  function New(n: nat): (uf: UnionFind)
    ensures Valid(uf) && |uf.parent| == n
    ensures forall i :: 0 <= i < n ==> Root(uf, i) == i && uf.size[i] == 1
    ensures forall i, j :: 0 <= i < n && 0 <= j < n && i != j ==> !Equiv(uf, i, j)
  {
    var uf := UnionFind(seq(n, _ => None), seq(n, _ => 1));
    assert forall r :: 0 <= r < n ==> Members(uf, r) == {r};
    uf
  }

  /** Whether `x` and `y` are in the same set. */
  function Equiv(uf: UnionFind, x: nat, y: nat): (b: bool)
    requires Shaped(uf) && x < |uf.parent| && y < |uf.parent|
    ensures b <==> x in Members(uf, Root(uf, y))
  {
    Root(uf, x) == Root(uf, y)
  }

  /** `Equiv` is an equivalence relation. */
  lemma EquivIsEquivalence(uf: UnionFind, x: nat, y: nat, z: nat)
    requires Shaped(uf) && x < |uf.parent| && y < |uf.parent| && z < |uf.parent|
    ensures Equiv(uf, x, x)
    ensures Equiv(uf, x, y) ==> Equiv(uf, y, x)
    ensures Equiv(uf, x, y) && Equiv(uf, y, z) ==> Equiv(uf, x, z)
  {
  }

  /** The raw size entry; at a root it is the number of elements in its set. */
  function Size(uf: UnionFind, x: nat): (s: nat)
    requires Valid(uf) && x < |uf.parent|
    ensures 1 <= s <= |uf.parent|
    ensures uf.parent[x].None? ==> s == |Members(uf, x)|
  {
    uf.size[x]
  }

  /** The walk of `root`, re-pointing `x` at each step to the parent just reached,
      so that `x` ends up linked to its root. Nodes between `x` and the root keep
      their links. */
  method RootWithOptimize(uf: UnionFind, x: nat) returns (uf': UnionFind, r: nat)
    requires Valid(uf) && x < |uf.parent|
    ensures r == Root(uf, x)
    ensures Valid(uf') && uf'.size == uf.size && |uf'.parent| == |uf.parent|
    ensures uf'.parent[x] == (if uf.parent[x].None? then None else Some(r))
    ensures forall i :: 0 <= i < |uf.parent| && i != x ==> uf'.parent[i] == uf.parent[i]
    ensures forall z :: 0 <= z < |uf.parent| ==> Root(uf', z) == Root(uf, z)
  {
    var parent := uf.parent;
    var curr: nat := x;
    while parent[curr].Some?
      invariant |parent| == |uf.parent| && curr < |parent|
      invariant Root(uf, curr) == Root(uf, x)
      invariant forall i :: 0 <= i < |parent| && i != x ==> parent[i] == uf.parent[i]
      invariant curr == x ==> parent == uf.parent
      invariant curr != x ==> uf.size[x] < uf.size[curr] && parent[x] == Some(curr)
      decreases |uf.size| - uf.size[curr]
    {
      var p := parent[curr].value;
      parent := parent[x := Some(p)];
      curr := p;
    }
    r := curr;
    uf' := uf.(parent := parent);
    if uf.parent[x].Some? {
      assert parent == uf.parent[x := Some(r)];
      RepointPreservesRoots(uf, x);
    } else {
      assert uf' == uf;
    }
  }

  /** Linking a non-root straight to its root changes no representative. */
  lemma RepointPreservesRoots(uf: UnionFind, x: nat)
    requires Valid(uf) && x < |uf.parent| && uf.parent[x].Some?
    ensures var uf' := uf.(parent := uf.parent[x := Some(Root(uf, x))]);
      && Valid(uf')
      && forall z :: 0 <= z < |uf.parent| ==> Root(uf', z) == Root(uf, z)
  {
    var uf' := uf.(parent := uf.parent[x := Some(Root(uf, x))]);
    assert uf.size[x] < uf.size[uf.parent[x].value];
    assert Shaped(uf');
    forall z | 0 <= z < |uf.parent|
      ensures Root(uf', z) == Root(uf, z)
    {
      RepointRoot(uf, x, z);
    }
    forall r | 0 <= r < |uf.parent|
      ensures Members(uf', r) == Members(uf, r)
    {
    }
  }

  lemma {:induction false} RepointRoot(uf: UnionFind, x: nat, z: nat)
    requires Valid(uf) && x < |uf.parent| && uf.parent[x].Some? && z < |uf.parent|
    requires Shaped(uf.(parent := uf.parent[x := Some(Root(uf, x))]))
    ensures Root(uf.(parent := uf.parent[x := Some(Root(uf, x))]), z) == Root(uf, z)
    decreases |uf.size| - uf.size[z]
  {
    if z != x && uf.parent[z].Some? {
      RepointRoot(uf, x, uf.parent[z].value);
    }
  }

  /** The set `{0, .., n - 1}`. */
  ghost function Range(n: nat): (s: set<nat>)
    ensures forall z: nat :: z in s <==> z < n
    ensures |s| == n
  {
    if n == 0 then {} else Range(n - 1) + {n - 1}
  }

  lemma {:induction false} SubsetCard(a: set<nat>, b: set<nat>)
    requires a <= b
    ensures |a| <= |b|
    decreases a
  {
    if a != {} {
      var x :| x in a;
      SubsetCard(a - {x}, b - {x});
    }
  }

  /** Two distinct roots together own at most all `n` elements. */
  lemma TwoRootsFit(uf: UnionFind, a: nat, b: nat)
    requires Valid(uf) && a < |uf.parent| && b < |uf.parent| && a != b
    requires uf.parent[a].None? && uf.parent[b].None?
    ensures uf.size[a] + uf.size[b] <= |uf.parent|
  {
    var both := Members(uf, a) + Members(uf, b);
    assert Members(uf, a) * Members(uf, b) == {};
    assert |both| == |Members(uf, a)| + |Members(uf, b)|;
    SubsetCard(both, Range(|uf.parent|));
  }

  /** Attaching root `small` under root `large` and adding the sizes keeps the
      invariant and moves exactly the members of `small` to `large`. */
  lemma LinkIsValid(uf: UnionFind, large: nat, small: nat)
    requires Valid(uf) && large < |uf.parent| && small < |uf.parent| && large != small
    requires uf.parent[large].None? && uf.parent[small].None?
    requires uf.size[large] >= uf.size[small]
    ensures var uf' := Link(uf, large, small);
      && Valid(uf')
      && forall z :: 0 <= z < |uf.parent| ==>
           Root(uf', z) == if Root(uf, z) == small then large else Root(uf, z)
  {
    LinkShaped(uf, large, small);
    var uf' := Link(uf, large, small);
    forall z | 0 <= z < |uf.parent|
      ensures Root(uf', z) == if Root(uf, z) == small then large else Root(uf, z)
    {
      LinkRoot(uf, large, small, z);
    }
    LinkCounts(uf, uf', large, small);
  }

  lemma LinkShaped(uf: UnionFind, large: nat, small: nat)
    requires Valid(uf) && large < |uf.parent| && small < |uf.parent| && large != small
    requires uf.parent[large].None? && uf.parent[small].None?
    ensures Shaped(Link(uf, large, small))
  {
    TwoRootsFit(uf, large, small);
  }

  /** The counting half of `LinkIsValid`: the members of `small` join those of `large`. */
  lemma LinkCounts(uf: UnionFind, uf': UnionFind, large: nat, small: nat)
    requires Valid(uf) && Shaped(uf') && |uf'.parent| == |uf.parent|
    requires large < |uf.parent| && small < |uf.parent| && large != small
    requires uf.parent[large].None? && uf.parent[small].None?
    requires forall i :: 0 <= i < |uf.parent| && i != small ==> uf'.parent[i] == uf.parent[i]
    requires uf'.parent[small].Some?
    requires forall i :: 0 <= i < |uf.parent| && i != large ==> uf'.size[i] == uf.size[i]
    requires uf'.size[large] == uf.size[large] + uf.size[small]
    requires RootsMoved(uf, uf', large, small)
    ensures Valid(uf')
  {
    LinkMembers(uf, uf', large, small);
    forall r | 0 <= r < |uf.parent| && uf'.parent[r].None?
      ensures uf'.size[r] == |Members(uf', r)|
    {
      if r != large {
        LinkMembersOther(uf, uf', large, small, r);
      }
    }
  }

  /** Root `r` takes over the members of `s`, and nothing else moves. */
  ghost predicate RootsMoved(uf: UnionFind, uf': UnionFind, r: nat, s: nat)
    requires Shaped(uf) && Shaped(uf') && |uf'.parent| == |uf.parent|
  {
    forall z :: 0 <= z < |uf.parent| ==> Root(uf', z) == if Root(uf, z) == s then r else Root(uf, z)
  }

  lemma LinkMembers(uf: UnionFind, uf': UnionFind, large: nat, small: nat)
    requires Shaped(uf) && Shaped(uf') && |uf'.parent| == |uf.parent| && large != small
    requires RootsMoved(uf, uf', large, small)
    ensures Members(uf', large) == Members(uf, large) + Members(uf, small)
    ensures Members(uf, large) !! Members(uf, small)
  {
  }

  lemma LinkMembersOther(uf: UnionFind, uf': UnionFind, large: nat, small: nat, r: nat)
    requires Shaped(uf) && Shaped(uf') && |uf'.parent| == |uf.parent| && r != large && r != small
    requires RootsMoved(uf, uf', large, small)
    ensures Members(uf', r) == Members(uf, r)
  {
  }

  /** The mutation `union` ends with: `small`'s parent becomes `large`, whose size
      grows by `small`'s. */
  function Link(uf: UnionFind, large: nat, small: nat): UnionFind
    requires large < |uf.parent| && small < |uf.parent| && |uf.size| == |uf.parent|
  {
    UnionFind(uf.parent[small := Some(large)], uf.size[large := uf.size[large] + uf.size[small]])
  }

  lemma {:induction false} LinkRoot(uf: UnionFind, large: nat, small: nat, z: nat)
    requires Valid(uf) && large < |uf.parent| && small < |uf.parent| && large != small
    requires uf.parent[large].None? && uf.parent[small].None?
    requires Shaped(Link(uf, large, small)) && z < |uf.parent|
    ensures Root(Link(uf, large, small), z) == if Root(uf, z) == small then large else Root(uf, z)
    decreases |uf.size| - uf.size[z]
  {
    if z != small && uf.parent[z].Some? {
      LinkRoot(uf, large, small, uf.parent[z].value);
    }
  }

  /** After a union of `x` and `y`, the sets of `x` and `y` share the representative
      `top`, one of their two old roots, and every other representative is kept. */
  ghost predicate Merged(uf: UnionFind, uf': UnionFind, x: nat, y: nat, top: nat)
    requires Shaped(uf) && Shaped(uf') && |uf'.parent| == |uf.parent|
    requires x < |uf.parent| && y < |uf.parent|
  {
    && (top == Root(uf, x) || top == Root(uf, y))
    && forall z :: 0 <= z < |uf.parent| ==>
         Root(uf', z) == if Root(uf, z) == Root(uf, x) || Root(uf, z) == Root(uf, y) then top else Root(uf, z)
  }

  /** A merge joins exactly the two classes of `x` and `y`. */
  lemma MergedEquiv(uf: UnionFind, uf': UnionFind, x: nat, y: nat, top: nat)
    requires Shaped(uf) && Shaped(uf') && |uf'.parent| == |uf.parent|
    requires x < |uf.parent| && y < |uf.parent|
    requires Merged(uf, uf', x, y, top)
    ensures Equiv(uf', x, y)
    ensures forall a, b :: 0 <= a < |uf.parent| && 0 <= b < |uf.parent| ==>
      (Equiv(uf', a, b) <==>
         || Equiv(uf, a, b)
         || (Equiv(uf, a, x) && Equiv(uf, b, y))
         || (Equiv(uf, a, y) && Equiv(uf, b, x)))
  {
    forall a, b | 0 <= a < |uf.parent| && 0 <= b < |uf.parent|
      ensures Equiv(uf', a, b) <==>
         || Equiv(uf, a, b)
         || (Equiv(uf, a, x) && Equiv(uf, b, y))
         || (Equiv(uf, a, y) && Equiv(uf, b, x))
    {
      assert Root(uf', a) == if Root(uf, a) == Root(uf, x) || Root(uf, a) == Root(uf, y) then top else Root(uf, a);
      assert Root(uf', b) == if Root(uf, b) == Root(uf, x) || Root(uf, b) == Root(uf, y) then top else Root(uf, b);
    }
    assert Root(uf', x) == top && Root(uf', y) == top;
  }

  /** The end of `union` for two distinct roots: the one with the larger-or-equal
      size (the first on a tie) stays a root, the other is attached under it. */
  method LinkRoots(uf: UnionFind, rx: nat, ry: nat) returns (uf': UnionFind)
    requires Valid(uf) && rx < |uf.parent| && ry < |uf.parent| && rx != ry
    requires uf.parent[rx].None? && uf.parent[ry].None?
    ensures Valid(uf') && |uf'.parent| == |uf.parent|
    ensures var large := if uf.size[rx] >= uf.size[ry] then rx else ry;
      var small := if large == rx then ry else rx;
      && uf'.parent[large].None?
      && uf'.parent[small] == Some(large)
      && uf'.size[large] == uf.size[rx] + uf.size[ry]
      && (forall i :: 0 <= i < |uf.parent| && i != small ==> uf'.parent[i] == uf.parent[i])
      && (forall i :: 0 <= i < |uf.parent| && i != large ==> uf'.size[i] == uf.size[i])
      && forall z :: 0 <= z < |uf.parent| ==>
           Root(uf', z) == if Root(uf, z) == small then large else Root(uf, z)
  {
    var large, small := rx, ry;
    if uf.size[rx] < uf.size[ry] {
      large, small := ry, rx;
    }
    LinkIsValid(uf, large, small);
    uf' := Link(uf, large, small);
  }

  /** The parent of `i` once `root_with_optimize` has run on `x` (root `rx`) and on
      `y` (root `ry`): a non-root among `x` and `y` points straight at its root,
      everything else keeps its link. */
  function Repointed(parent: seq<Option<nat>>, i: nat, x: nat, rx: nat, y: nat, ry: nat): Option<nat>
    requires i < |parent|
  {
    if i == x && parent[i].Some? then Some(rx)
    else if i == y && parent[i].Some? then Some(ry)
    else parent[i]
  }

  /** The first step of `union` for `x != y`: `root_with_optimize` on `x`, then on
      `y`. Only the parents of `x` and `y` change, and no representative does. */
  method RootsOfBoth(uf: UnionFind, x: nat, y: nat) returns (uf': UnionFind, rx: nat, ry: nat)
    requires Valid(uf) && x < |uf.parent| && y < |uf.parent| && x != y
    ensures rx == Root(uf, x) && ry == Root(uf, y)
    ensures Valid(uf') && uf'.size == uf.size && |uf'.parent| == |uf.parent|
    ensures forall i :: 0 <= i < |uf.parent| ==> uf'.parent[i] == Repointed(uf.parent, i, x, rx, y, ry)
    ensures forall z :: 0 <= z < |uf.parent| ==> Root(uf', z) == Root(uf, z)
  {
    var uf1;
    uf1, rx := RootWithOptimize(uf, x);
    uf', ry := RootWithOptimize(uf1, y);
    RepointedFrame(uf.parent, uf1.parent, uf'.parent, x, rx, y, ry);
    SameRootsTrans(uf, uf1, uf');
  }

  /** Re-pointing `x` at `rx` and then `y` at `ry`, each only if it has a parent,
      gives `Repointed`. */
  lemma RepointedFrame(p0: seq<Option<nat>>, p1: seq<Option<nat>>, p2: seq<Option<nat>>,
                       x: nat, rx: nat, y: nat, ry: nat)
    requires |p1| == |p0| && |p2| == |p0| && x < |p0| && y < |p0| && x != y
    requires p1[x] == (if p0[x].None? then None else Some(rx))
    requires forall i :: 0 <= i < |p0| && i != x ==> p1[i] == p0[i]
    requires p2[y] == (if p1[y].None? then None else Some(ry))
    requires forall i :: 0 <= i < |p0| && i != y ==> p2[i] == p1[i]
    ensures forall i :: 0 <= i < |p0| ==> p2[i] == Repointed(p0, i, x, rx, y, ry)
  {
  }

  /** Keeping every representative is transitive. */
  lemma SameRootsTrans(a: UnionFind, b: UnionFind, c: UnionFind)
    requires Shaped(a) && Shaped(b) && Shaped(c)
    requires |b.parent| == |a.parent| && |c.parent| == |a.parent|
    requires forall z :: 0 <= z < |a.parent| ==> Root(b, z) == Root(a, z)
    requires forall z :: 0 <= z < |a.parent| ==> Root(c, z) == Root(b, z)
    ensures forall z :: 0 <= z < |a.parent| ==> Root(c, z) == Root(a, z)
  {
  }

  /** `union`: nothing to do for `x == y`; otherwise both arguments are re-pointed
      to their roots, and distinct roots are linked, the smaller set under the
      larger one (ties keep `x`'s root on top). */
  method Union(uf: UnionFind, x: nat, y: nat) returns (uf': UnionFind, res: UnionResult)
    requires Valid(uf) && (x == y || (x < |uf.parent| && y < |uf.parent|))
    ensures Valid(uf') && |uf'.parent| == |uf.parent|
    ensures x == y ==> uf' == uf && res == AlreadyUnified
    ensures x < |uf.parent| && y < |uf.parent| ==> (res == AlreadyUnified <==> Root(uf, x) == Root(uf, y))
    ensures res == AlreadyUnified ==>
      && uf'.size == uf.size
      && forall z :: 0 <= z < |uf.parent| ==> Root(uf', z) == Root(uf, z)
    ensures x != y && res == AlreadyUnified ==>
      forall i :: 0 <= i < |uf.parent| ==> uf'.parent[i] == Repointed(uf.parent, i, x, Root(uf, x), y, Root(uf, y))
    ensures x != y && res == Unified ==>
      var rx, ry := Root(uf, x), Root(uf, y);
      var large := if uf.size[rx] >= uf.size[ry] then rx else ry;
      var small := if large == rx then ry else rx;
      && uf'.parent[large].None?
      && uf'.parent[small] == Some(large)
      && uf'.size[large] == uf.size[rx] + uf.size[ry]
      && (forall i :: 0 <= i < |uf.parent| && i != large ==> uf'.size[i] == uf.size[i])
      && (forall i :: 0 <= i < |uf.parent| && i != small ==> uf'.parent[i] == Repointed(uf.parent, i, x, Root(uf, x), y, Root(uf, y)))
      && Merged(uf, uf', x, y, large)
    ensures x < |uf.parent| && y < |uf.parent| ==> Equiv(uf', x, y)
    ensures x < |uf.parent| && y < |uf.parent| ==>
      forall a, b :: 0 <= a < |uf.parent| && 0 <= b < |uf.parent| ==>
        (Equiv(uf', a, b) <==>
           || Equiv(uf, a, b)
           || (Equiv(uf, a, x) && Equiv(uf, b, y))
           || (Equiv(uf, a, y) && Equiv(uf, b, x)))
  {
    if x == y {
      if x < |uf.parent| {
        MergedEquiv(uf, uf, x, y, Root(uf, x));
      }
      return uf, AlreadyUnified;
    }
    var uf2, rx, ry := RootsOfBoth(uf, x, y);
    if rx == ry {
      assert Merged(uf, uf2, x, y, rx);
      MergedEquiv(uf, uf2, x, y, rx);
      return uf2, AlreadyUnified;
    }
    uf' := LinkRoots(uf2, rx, ry);
    res := Unified;
    var large := if uf.size[rx] >= uf.size[ry] then rx else ry;
    var small := if large == rx then ry else rx;
    assert forall i :: 0 <= i < |uf.parent| && i != large ==> uf'.size[i] == uf.size[i];
    assert forall i :: 0 <= i < |uf.parent| && i != small ==> uf'.parent[i] == Repointed(uf.parent, i, x, Root(uf, x), y, Root(uf, y));
    forall z | 0 <= z < |uf.parent|
      ensures Root(uf', z) == if Root(uf, z) == rx || Root(uf, z) == ry then large else Root(uf, z)
    {
      assert Root(uf2, z) == Root(uf, z);
    }
    MergedEquiv(uf, uf', x, y, large);
  }

  /** The unit test: three singletons, then `union(0, 1)`. */
  method UnionScenario() returns (first: UnionResult, second: UnionResult, size0: nat, joined: bool, apart: bool)
    ensures first == Unified && second == AlreadyUnified
    ensures size0 == 2 && joined && !apart
  {
    var uf := New(3);
    assert !Equiv(uf, 0, 1) && !Equiv(uf, 0, 2) && !Equiv(uf, 2, 1);
    uf, first := Union(uf, 0, 1);
    size0 := Size(uf, 0);
    joined := Equiv(uf, 0, 1);
    apart := Equiv(uf, 0, 2);
    uf, second := Union(uf, 0, 1);
  }

  /** `union(x, x)` answers before indexing, so an out-of-range `x` is accepted. */
  method UnionSameOutOfRange() returns (res: UnionResult, same: bool)
    ensures res == AlreadyUnified && same
  {
    var uf := New(3);
    var uf';
    uf', res := Union(uf, 5, 5);
    same := uf' == uf;
  }

  /** Four singletons, then `union(0, 1)` and `union(2, 3)`: two pairs, rooted at 0
      and at 2, each of size 2. */
  method TwoPairs() returns (uf: UnionFind)
    ensures Valid(uf) && |uf.parent| == 4
    ensures Root(uf, 0) == 0 && Root(uf, 2) == 2 && uf.size[0] == 2 && uf.size[2] == 2
    ensures Equiv(uf, 1, 0) && Equiv(uf, 3, 2)
  {
    uf := New(4);
    var r;
    uf, r := Union(uf, 0, 1);
    assert Root(uf, 2) == 2 && Root(uf, 3) == 3 && Root(uf, 0) == 0;
    uf, r := Union(uf, 2, 3);
  }

  /** Then `union(0, 2)`: the two pairs merge under 0 with size 4, while the raw
      entry of the absorbed root 2 keeps its size 2. */
  method UnionSizesScenario() returns (size0: nat, size2: nat, joined: bool, root1: nat, root3: nat)
    ensures size0 == 4 && size2 == 2 && joined
    ensures root1 == 0 && root3 == 0
  {
    var uf := TwoPairs();
    var r;
    uf, r := Union(uf, 0, 2);
    size0 := Size(uf, 0);
    size2 := Size(uf, 2);
    joined := Equiv(uf, 1, 3);
    root1 := Root(uf, 1);
    root3 := Root(uf, 3);
  }
}

=== FILE: wrappers.dfy ===
/** The optional value used for parent links and search results. */
module Wrappers {

  datatype Option<+T> = None | Some(value: T)
}
